=== FILE: README.md ===
# lxtap material serializer

This project is a Dafny model of the lxtap writer in sokol-tools' `shdc`. The writer turns shader reflection and per-language compiled shaders into one binary material blob. The model covers three parts:

- the binary records of `src/shdc/lxtap.h`, each a `struct_size` plus a `write`;
- the two aggregation passes of `src/shdc/lxtap.cc`: the reflection pass `lxtap_write_header` and the payload pass `lxtap_write_shader_sources_and_blobs`;
- the per-language loop of `lxtap_t::gen`, which ends in `Writer::gen`.

Files:

- `wire.dfy`: fixed-width integers and length-prefixed byte strings.
- `records.dfy`: the records, the `array<T>` and `optional<T>` wrappers, the header and the whole-context `Serialize`.
- `decoding.dfy` and `roundtrip.dfy`: a field-by-field loader and the proof that `Serialize` round-trips through it.
- `producer.dfy`: the reflection and compiler outputs the passes read.
- `reflect.dfy`: the reflection pass.
- `payload.dfy`: the payload pass.
- `driver.dfy`: `gen`, both as the method `Gen` and as the reference definition `RunLanguages`.
- `properties.dfy`: properties of whole runs.

## Where the code differs from what its structure suggests, and the model follows the code

- **Size prefixes.** `uniform_block_t` and `program_t` write a size prefix that does not match the bytes that follow it. `array<T>::struct_size` leaves out the 2-byte prefix of every element, and `program_t::struct_size` leaves out both shader prefixes. So a block's prefix is 2 bytes per uniform short, and a program's prefix is 4 bytes short. Every size is also a wrapping `uint16_t`. The model keeps the prefixes as written, and its loader reads and skips every prefix.
- **The fs uniform block is never marked present.** Line 73 of `lxtap.cc` calls `fill` on the *vs* block. So the fs block's value is built but its presence byte stays 0. The `vs` block becomes present as soon as any fragment block exists.
- **Every payload goes into `vs`.** Line 150 assigns through a reference bound to `vs`. It copies `fs` into `vs` instead of rebinding the reference, so each language's program holds the last vs-or-fs snippet's payload in `vs`, and `fs` is never assigned.
- **Visiting order.** The loop order is fixed by the language's enum index, not chosen by the caller: indices 0 up to `slang_t::NUM` - 1, filtered by the request bit mask. The model takes `slang_t::NUM` to be 7, numbered like `lang_type` (`GLSL330` = 0 up to `METAL_SIM` = 6). The reflection sections come from the first visited language only.
- **Versions.** The format carries a version field, and the writer always writes 1. The writer itself contains no loader. The model's loader `Decoding.DecodeFile` accepts only the two magic bytes and version 1.

## Model

| member | source | states |
|---|---|---|
| Wire.WriteU16 | src/shdc/lxtap.h:21-26 | writes a `uint16_t` as two bytes whose little-endian reading is the value |
| Wire.EncodeBytes | src/shdc/lxtap.h:28-47 | a byte string is written as its length modulo 2^16 in two bytes, then its bytes unchanged, with no terminator |
| Wire.BytesStructSize | src/shdc/lxtap.h:36-38 | the string's `struct_size` is the length of its write, modulo 2^16; the two are equal when the string fits |
| Records.EncodeAttr | src/shdc/lxtap.h:63-74 | an attribute's write is 7 bytes longer than its name; its prefix is its `struct_size`, which equals the bytes after the prefix, modulo 2^16 |
| Records.ArrayStructSize | src/shdc/lxtap.h:80-86 | the wrapping `uint16_t` accumulation equals 2 plus the exact sum of the element sizes, taken modulo 2^16 |
| Records.EncodeArray | src/shdc/lxtap.h:92-98 | an array writes its element count modulo 2^16, then every element's write in order; an empty array is the two bytes 0, 0 |
| Records.ArrayUndercount | src/shdc/lxtap.h:80-98 | when each element writes 2 bytes more than its `struct_size`, the array's `struct_size` is 2 bytes per element short of the array's write |
| Records.EncodeUniform | src/shdc/lxtap.h:107-117 | a uniform's write is 7 bytes longer than its name; its prefix equals the bytes after it, modulo 2^16 |
| Records.EncodeBlock | src/shdc/lxtap.h:126-136 | a block's prefix is its `struct_size`, and that is the bytes after the prefix minus 2 per uniform, modulo 2^16 |
| Records.BlockPrefixShort | src/shdc/lxtap.h:126-136 | when a block's write fits 16 bits, its prefix is exactly 2 bytes per uniform short, so it is correct only for a block with no uniforms |
| Records.EncodeTexture | src/shdc/lxtap.h:152-162 | a texture's write is 6 bytes longer than its name; its prefix equals the bytes after it, modulo 2^16 |
| Records.EncodeShader | src/shdc/lxtap.h:185-193 | a shader's write is 5 bytes longer than its payload; its prefix equals the bytes after it, modulo 2^16 |
| Records.EncodeProgram | src/shdc/lxtap.h:201-210 | a program's write is 13 bytes longer than its two payloads; its prefix is the bytes after it minus 4, modulo 2^16 |
| Records.ProgramPrefixShort | src/shdc/lxtap.h:201-210 | when a program's write fits 16 bits, its prefix is exactly 4 bytes short of the bytes that follow it |
| Records.EncodeHeader | src/shdc/lxtap.h:213-222 | the header is the bytes 0xCF, 0xBA, 1, 0 |
| Records.Fill | src/shdc/lxtap.h:245-247 | `fill` marks the optional present and keeps its value |
| Records.EncodeOptional | src/shdc/lxtap.h:230-239 | an optional writes presence byte 1 then its value when filled, and the single byte 0 otherwise |
| Records.Serialize | src/shdc/lxtap.h:257-279 | the output always starts with the 4-byte header |
| Decoding.DecodeFile | src/shdc/lxtap.h:213-222 | the loader accepts only input that starts with the writer's exact header, so it rejects any other magic or version |
| RoundTrip.AttrRoundTrip | src/shdc/lxtap.h:63-74 | an attribute whose name fits is read back exactly, and the bytes after it are left in place |
| RoundTrip.UniformRoundTrip | src/shdc/lxtap.h:107-117 | a uniform whose name fits is read back exactly |
| RoundTrip.ArrayRoundTrip | src/shdc/lxtap.h:92-98 | an array with fewer than 2^16 elements is read back element by element, in order |
| RoundTrip.BlockRoundTrip | src/shdc/lxtap.h:126-136 | a uniform block is read back exactly, with every uniform in order, even though its prefix is short |
| RoundTrip.TextureRoundTrip | src/shdc/lxtap.h:152-162 | a texture whose name fits is read back exactly |
| RoundTrip.ShaderRoundTrip | src/shdc/lxtap.h:185-193 | a shader's kind byte and payload bytes are read back exactly |
| RoundTrip.ProgramRoundTrip | src/shdc/lxtap.h:201-210 | a program's language and both shaders are read back exactly, even though its prefix is short |
| RoundTrip.OptionalRoundTrip | src/shdc/lxtap.h:230-239 | an optional reads back as its value when filled, and as absent otherwise, whatever value an empty one holds |
| RoundTrip.SerializeRoundTrip | src/shdc/lxtap.h:257-271 | decoding the whole output gives back the context as a loader sees it: same attributes, blocks, textures and programs, in order |
| Reflect.SlottedAttrs | src/shdc/lxtap.cc:41-50 | the attributes kept are exactly the inputs with a non-negative slot, each converted unchanged; when all slots are non-negative they are all kept, in order; the order in general is stated by `SlottedAttrsSnoc` |
| Reflect.SlottedAttrsSnoc | src/shdc/lxtap.cc:41-50 | one more input adds its attribute at the end of the kept list iff its slot is non-negative, so the kept attributes are in reflection order |
| Reflect.AddAttrsAppends | src/shdc/lxtap.cc:41-50 | the attribute loop appends those attributes to the existing list and changes nothing else |
| Reflect.MergeBlocksStep | src/shdc/lxtap.cc:53-69 | processing one block and then the rest is the same as merging them all: the last block's name, slot and size, with all members accumulated |
| Reflect.VsBlocksEffect | src/shdc/lxtap.cc:53-69 | the vs block is present afterwards iff it was before or some vertex block exists; the last block wins; members accumulate; no other field changes |
| Reflect.FsBlocksEffect | src/shdc/lxtap.cc:71-87 | fragment blocks update only the fs block's value, never its presence flag; they mark the vs block present iff there is at least one |
| Reflect.ImagesEffect | src/shdc/lxtap.cc:89-98 | the texture list is present iff it was before or some image exists; the images are appended in order |
| Reflect.ReflectProgramEffect | src/shdc/lxtap.cc:41-98 | one program's reflection, field by field: which sections become present, what each holds, and that the programs are untouched |
| Reflect.FsBlockStaysAbsent | src/shdc/lxtap.cc:71-87 | across the whole reflection pass the fs block's presence flag never changes, and neither do the programs |
| Reflect.HeaderPassFails | src/shdc/lxtap.cc:29-33 | the reflection pass fails iff some declared program's snippet name or compiled source cannot be found |
| Payload.FindFrom | src/shdc/lxtap.cc:129-135 | the search returns the first program of the language, or reports that none exists |
| Payload.FindOrCreate | src/shdc/lxtap.cc:129-142 | existing programs stay in place; a program is appended iff the language had none; the index chosen is the language's first program |
| Payload.StorePayload | src/shdc/lxtap.cc:144-161 | for a vs or an fs snippet alike, the payload ends up in `vs` while `fs` and the language are kept |
| Payload.PayloadOf | src/shdc/lxtap.cc:154-161 | the payload is marked bytecode iff a blob exists; its bytes are the blob's if so, and the generated source text otherwise |
| Payload.InstallTwice | src/shdc/lxtap.cc:129-161 | storing twice for the same language is the same as storing the second payload alone |
| Payload.InstallEffect | src/shdc/lxtap.cc:129-161 | storing grows the list iff the language had no program; that program holds the payload in `vs` and keeps its `fs`; no other program changes |
| Payload.InstallKeepsDistinct | src/shdc/lxtap.cc:129-142 | storing never gives two programs the same language |
| Payload.LastStage | src/shdc/lxtap.cc:115-119 | finds the last vs or fs snippet, or reports that every snippet is of another kind |
| Payload.PayloadFromEffect | src/shdc/lxtap.cc:115-167 | the snippet loop amounts to a single store of the last vs or fs snippet's payload |
| Payload.PayloadFromFails | src/shdc/lxtap.cc:120-122 | the loop fails iff some vs or fs snippet has no compiled source |
| Payload.PayloadPassEffect | src/shdc/lxtap.cc:104-168 | the pass changes only the program list and keeps the languages distinct; what it stores, and where, is as in `InstallEffect` for the last snippet |
| Driver.SelectedBetween | src/shdc/lxtap.cc:184-186 | lists, in increasing order, exactly the language indices in range whose bit is set in the request mask |
| Aggregation.VisitLanguageEffect | src/shdc/lxtap.cc:186-200 | a successful visit passed the language's error check; a later visit changes only the program list; the first visit needs exactly one declared program and leaves every other section as that language's reflection pass made it |
| Driver.RunSnoc | src/shdc/lxtap.cc:184-202 | visiting one more language runs one more step after the others |
| Driver.RunErrSticks | src/shdc/lxtap.cc:187-190 | once a language fails, the languages after it change nothing |
| Driver.VisitIfSelected | src/shdc/lxtap.cc:184-201 | one turn of the language loop: an unselected language leaves the context and the header flag alone, a selected one sets the flag and advances the reference run by exactly that language; either way the step is the run through language `i`, so an error it reports is that language's own and is the error of the whole run |
| Driver.Gen | src/shdc/lxtap.cc:174-204 | the loop's result is the reference run over the selected languages in increasing index order: on success the final context and the bytes `Writer::gen` makes of it, otherwise the first error met |
| Driver.RunNeedsOneProgram | src/shdc/lxtap.cc:192-196 | a run that visits any language succeeds only when the input declares exactly one program |
| Aggregation.GenReflectionFromFirst | src/shdc/lxtap.cc:192-199 | every section except the programs is what the reflection pass of the first visited language made of the starting context |
| Aggregation.GenFsBlockUnchanged | src/shdc/lxtap.cc:71-87 | the fs block's presence flag after a run is the one it started with, so from a fresh context the fs block is always written as absent |
| Aggregation.PayloadAppendsFresh | src/shdc/lxtap.cc:129-161 | for a language with no program yet, when the input has a vs or fs snippet, the pass appends exactly one new program holding the last snippet's payload and keeps the others |
| Aggregation.LaterAppendsFresh | src/shdc/lxtap.cc:184-202 | when the input has a vs or fs snippet and none of those languages has a program yet, each later language, in visiting order, appends one new program for itself after the existing ones |
| Aggregation.GenProgramsPerLanguage | src/shdc/lxtap.cc:184-202 | from no programs, and when the input has a vs or fs snippet, a run leaves one program per visited language, in visiting order; each holds its last snippet's payload in `vs` and a never-assigned `fs` |

## Left out

- Writing the output file (`lxtap.cc` lines 206-213), the failure to open it, and `file_content`. `Gen` returns the bytes instead.
- All `fmt::print` logging.
- The `pystring::splitlines` call on line 164. Its result is never used.
- `output_t::check_errors`, `find_source_by_snippet_index`, `find_blob_by_snippet_index` and `snippet_map.at`. These are not part of this model. They become inputs: a check verdict per language, and per-snippet optional sources and blobs.
  - A failed `assert` becomes the error `MissingSource`.
  - A throwing `snippet_map.at` becomes `UnknownSnippet`.
  - `exit(1)` on a program count other than one becomes `ProgramCount`.
- The static `mat_ctx`. It is never reset between calls, so `Gen` takes the starting context as a parameter. `EmptyContext` is its zero-initialised first state.
- Driver.Gen: on an error it returns only the error. In the source, `mat_ctx` keeps what the languages before the failing one wrote, and a later call starts from that. The model does not return that partly updated context, so the state after a failed call is not modelled.
- The `src_type` of a freshly created `program_t`. It is indeterminate in the source, and the model uses one parameter byte `unset` per run.
- `slang_t::bit` is not part of this model. The mask test assumes it is `1 << i`.
- `slang_t::NUM` is not part of this model. It is assumed to be 7, with languages numbered like `lang_type`, so the loop bound and the sizes of the per-language inputs are `LangCount` = 7.
- The `shdc.h` types are reduced to the fields the passes read.
- The order of `inp.programs`. In the source it is a map iterated by key; the model takes the programs as a sequence in that order. `gen` accepts only one program, so the order does not reach its output.
- Language names (`slang_t::to_str`). A language is only its enum index, stored into the `lang` byte modulo 2^8.
- The `std::string` character type. Names and payloads are modelled as byte sequences.
- A loader. The modelled code contains none. `Decoding` is this model's own reading of the format, used to state the round trip.
- Wire.WriteU16: fixes little-endian order. `write_binary` copies the host's in-memory bytes, so the model's output is the output on a little-endian host only.

=== FILE: decoding.dfy ===
/**
  A loader for the lxtap format that parses field by field in the declared
  order. Record size prefixes are read and skipped: the uniform-block and
  program prefixes do not match their bodies, so a loader cannot rely on them.
*/
module Decoding {
  import opened Wire
  import opened Records
  import opened Results

  /** What a loader can observe of a context: optionals that are empty carry no value. */
  datatype Loaded = Loaded(
    attrs: seq<Attr>,
    vsBlock: Option<UniformBlock>,
    fsBlock: Option<UniformBlock>,
    textures: Option<seq<Texture>>,
    programs: seq<Program>)

  function Present<T>(o: Optional<T>): Option<T>
  {
    if o.isEmpty then None else Some(o.value)
  }

  function View(c: Context): Loaded
  {
    Loaded(c.attrs, Present(c.vsBlock), Present(c.fsBlock), Present(c.textures), c.programs)
  }

  /** Every length and count that is written to a 16-bit field fits in it. */
  predicate Fits(s: seq<uint8>)
  {
    |s| < TWO16
  }

  predicate BlockFits(b: UniformBlock)
  {
    Fits(b.name) && |b.params| < TWO16 && forall u :: u in b.params ==> Fits(u.name)
  }

  predicate OptionFits<T>(o: Option<T>, ok: T -> bool)
  {
    o.Some? ==> ok(o.value)
  }

  predicate TexturesFit(ts: seq<Texture>)
  {
    |ts| < TWO16 && forall t :: t in ts ==> Fits(t.name)
  }

  predicate ProgramFits(p: Program)
  {
    Fits(p.vs.source) && Fits(p.fs.source)
  }

  predicate LoadedFits(m: Loaded)
  {
    && |m.attrs| < TWO16 && (forall a :: a in m.attrs ==> Fits(a.name))
    && OptionFits(m.vsBlock, BlockFits)
    && OptionFits(m.fsBlock, BlockFits)
    && OptionFits(m.textures, TexturesFit)
    && |m.programs| < TWO16 && (forall p :: p in m.programs ==> ProgramFits(p))
  }

  // ---------------------------------------------------------------- primitives

  function ReadU8(s: seq<uint8>): Option<(uint8, seq<uint8>)>
  {
    if |s| == 0 then None else Some((s[0], s[1..]))
  }

  function ReadU16(s: seq<uint8>): Option<(uint16, seq<uint8>)>
  {
    if |s| < 2 then None else Some((U16Value(s[0], s[1]), s[2..]))
  }

  function ReadBytes(s: seq<uint8>): Option<(seq<uint8>, seq<uint8>)>
  {
    var n :- ReadU16(s);
    if |n.1| < n.0 then None else Some((n.1[..n.0], n.1[n.0..]))
  }

  lemma ReadU8Write(v: uint8, rest: seq<uint8>)
    ensures ReadU8([v] + rest) == Some((v, rest))
  {
    assert ([v] + rest)[1..] == rest;
  }

  lemma ReadU16Write(v: uint16, rest: seq<uint8>)
    ensures ReadU16(WriteU16(v) + rest) == Some((v, rest))
  {
    assert (WriteU16(v) + rest)[2..] == rest;
  }

  lemma ReadBytesEncode(s: seq<uint8>, rest: seq<uint8>)
    requires Fits(s)
    ensures ReadBytes(EncodeBytes(s) + rest) == Some((s, rest))
  {
    var t := s + rest;
    assert EncodeBytes(s) + rest == WriteU16(|s|) + t;
    ReadU16Write(|s|, t);
    assert t[..|s|] == s && t[|s|..] == rest;
  }

  // ---------------------------------------------------------------- records

  function DecodeAttr(s: seq<uint8>): Option<(Attr, seq<uint8>)>
  {
    var size :- ReadU16(s);
    var slot :- ReadU16(size.1);
    var name :- ReadBytes(slot.1);
    var kind :- ReadU8(name.1);
    Some((Attr(slot.0, name.0, kind.0), kind.1))
  }

  function DecodeUniform(s: seq<uint8>): Option<(Uniform, seq<uint8>)>
  {
    var size :- ReadU16(s);
    var name :- ReadBytes(size.1);
    var kind :- ReadU8(name.1);
    var count :- ReadU8(kind.1);
    var offset :- ReadU8(count.1);
    Some((Uniform(name.0, kind.0, count.0, offset.0), offset.1))
  }

  function DecodeN<T>(n: nat, s: seq<uint8>, dec: seq<uint8> -> Option<(T, seq<uint8>)>): Option<(seq<T>, seq<uint8>)>
    decreases n
  {
    if n == 0 then Some(([], s))
    else
      var first :- dec(s);
      var others :- DecodeN(n - 1, first.1, dec);
      Some(([first.0] + others.0, others.1))
  }

  function DecodeArray<T>(s: seq<uint8>, dec: seq<uint8> -> Option<(T, seq<uint8>)>): Option<(seq<T>, seq<uint8>)>
  {
    var count :- ReadU16(s);
    DecodeN(count.0, count.1, dec)
  }

  function DecodeBlock(s: seq<uint8>): Option<(UniformBlock, seq<uint8>)>
  {
    var size :- ReadU16(s);
    var slot :- ReadU8(size.1);
    var name :- ReadBytes(slot.1);
    var bsize :- ReadU8(name.1);
    var params :- DecodeArray(bsize.1, DecodeUniform);
    Some((UniformBlock(slot.0, name.0, bsize.0, params.0), params.1))
  }

  function DecodeTexture(s: seq<uint8>): Option<(Texture, seq<uint8>)>
  {
    var size :- ReadU16(s);
    var slot :- ReadU8(size.1);
    var name :- ReadBytes(slot.1);
    var kind :- ReadU8(name.1);
    Some((Texture(slot.0, name.0, kind.0), kind.1))
  }

  function DecodeTextures(s: seq<uint8>): Option<(seq<Texture>, seq<uint8>)>
  {
    DecodeArray(s, DecodeTexture)
  }

  function DecodeShader(s: seq<uint8>): Option<(Shader, seq<uint8>)>
  {
    var size :- ReadU16(s);
    var srcType :- ReadU8(size.1);
    var source :- ReadBytes(srcType.1);
    Some((Shader(srcType.0, source.0), source.1))
  }

  function DecodeProgram(s: seq<uint8>): Option<(Program, seq<uint8>)>
  {
    var size :- ReadU16(s);
    var lang :- ReadU8(size.1);
    var vs :- DecodeShader(lang.1);
    var fs :- DecodeShader(vs.1);
    Some((Program(lang.0, vs.0, fs.0), fs.1))
  }

  function DecodeOptional<T>(s: seq<uint8>, dec: seq<uint8> -> Option<(T, seq<uint8>)>): Option<(Option<T>, seq<uint8>)>
  {
    var flag :- ReadU8(s);
    if flag.0 == 0 then Some((None, flag.1))
    else if flag.0 == 1 then
      var v :- dec(flag.1);
      Some((Some(v.0), v.1))
    else None
  }

  /** The five sections after the header, which must use up every byte. */
  function DecodeSections(s: seq<uint8>): Option<Loaded>
  {
    var attrs :- DecodeArray(s, DecodeAttr);
    var vs :- DecodeOptional(attrs.1, DecodeBlock);
    var fs :- DecodeOptional(vs.1, DecodeBlock);
    var textures :- DecodeOptional(fs.1, DecodeTextures);
    var programs :- DecodeArray(textures.1, DecodeProgram);
    if |programs.1| != 0 then None
    else Some(Loaded(attrs.0, vs.0, fs.0, textures.0, programs.0))
  }

  /** Parses a whole file, rejecting a wrong magic or an unknown version. */
  function DecodeFile(s: seq<uint8>): (r: Option<Loaded>)
    ensures r.Some? ==> |s| >= 4 && s[..4] == EncodeHeader()
  {
    if |s| < 4 || s[0] != Magic0 || s[1] != Magic1 || U16Value(s[2], s[3]) != Version then None
    else
      assert s[..4] == EncodeHeader();
      DecodeSections(s[4..])
  }
}

=== FILE: driver.dfy ===
/**
  The per-language control flow of `lxtap_t::gen`: languages are visited in
  enum-index order and filtered by the requested mask; the first selected
  language runs the program-count check and the reflection pass, and every
  selected language runs its error check and the payload pass. The bytes
  handed to the file writer are `Serialize` of the final context.
*/
module Driver {
  import opened Wire
  import opened Records
  import opened Results
  import opened Producer
  import opened Reflect
  import opened Payload

  /**
    Whether `args.slang & slang_t::bit(i)` is non-zero, taking `slang_t::bit(i)`
    to be `1 << i`: bit `i` of the mask.
  */
  predicate IsSelected(mask: nat, i: nat)
    decreases i
  {
    if i == 0 then mask % 2 == 1 else IsSelected(mask / 2, i - 1)
  }

  /** The selected language indices in `[lo, hi)`, in increasing order. */
  function SelectedBetween(mask: nat, lo: nat, hi: nat): (r: seq<nat>)
    ensures forall j :: 0 <= j < |r| ==> lo <= r[j] < hi && IsSelected(mask, r[j])
    ensures forall i :: lo <= i < hi && IsSelected(mask, i) ==> i in r
    ensures forall a, b :: 0 <= a < b < |r| ==> r[a] < r[b]
    decreases hi - lo
  {
    if lo >= hi then []
    else (if IsSelected(mask, lo) then [lo] else []) + SelectedBetween(mask, lo + 1, hi)
  }

  lemma {:induction false} SelectedSplit(mask: nat, lo: nat, mid: nat, hi: nat)
    requires lo <= mid <= hi
    ensures SelectedBetween(mask, lo, hi) == SelectedBetween(mask, lo, mid) + SelectedBetween(mask, mid, hi)
    decreases mid - lo
  {
    if lo < mid {
      SelectedSplit(mask, lo + 1, mid, hi);
    }
  }

  predicate LangsBelow(langs: seq<nat>)
  {
    forall j :: 0 <= j < |langs| ==> langs[j] < LangCount
  }

  /** Language `i` when the reflection has already been captured: error check, then payload. */
  function LaterLanguage(c: Context, inp: Input, crosses: seq<CrossOutput>, codes: seq<Bytecode>,
                         i: nat, unset: uint8): Result<Context, Error>
    requires |crosses| == LangCount && |codes| == LangCount && i < LangCount
  {
    if crosses[i].checkError.Some? then Err(CheckFailed(crosses[i].checkError.value))
    else PayloadPass(c, inp, crosses[i], codes[i], Wrap8(i), unset)
  }

  /** The first selected language: error check, program count, reflection, payload. */
  function FirstLanguage(c: Context, inp: Input, crosses: seq<CrossOutput>, codes: seq<Bytecode>,
                         i: nat, unset: uint8): Result<Context, Error>
    requires |crosses| == LangCount && |codes| == LangCount && i < LangCount
  {
    if crosses[i].checkError.Some? then Err(CheckFailed(crosses[i].checkError.value))
    else if |inp.programs| != 1 then Err(ProgramCount(|inp.programs|))
    else
      var h :- HeaderPass(c, inp, crosses[i]);
      PayloadPass(h, inp, crosses[i], codes[i], Wrap8(i), unset)
  }

  function LaterLanguages(c: Context, inp: Input, crosses: seq<CrossOutput>, codes: seq<Bytecode>,
                          langs: seq<nat>, unset: uint8): Result<Context, Error>
    requires |crosses| == LangCount && |codes| == LangCount && LangsBelow(langs)
    decreases |langs|
  {
    if |langs| == 0 then Ok(c)
    else
      var c' :- LaterLanguage(c, inp, crosses, codes, langs[0], unset);
      LaterLanguages(c', inp, crosses, codes, langs[1..], unset)
  }

  /**
    The behaviour of `gen` for a list of languages in visiting order: the
    reflection comes from the first of them only, the payload from each.
  */
  function RunLanguages(c0: Context, inp: Input, crosses: seq<CrossOutput>, codes: seq<Bytecode>,
                        langs: seq<nat>, unset: uint8): Result<Context, Error>
    requires |crosses| == LangCount && |codes| == LangCount && LangsBelow(langs)
  {
    if |langs| == 0 then Ok(c0)
    else
      var c1 :- FirstLanguage(c0, inp, crosses, codes, langs[0], unset);
      LaterLanguages(c1, inp, crosses, codes, langs[1..], unset)
  }

  lemma {:induction false} LaterSnoc(c: Context, inp: Input, crosses: seq<CrossOutput>, codes: seq<Bytecode>,
                                     langs: seq<nat>, x: nat, unset: uint8)
    requires |crosses| == LangCount && |codes| == LangCount && LangsBelow(langs) && x < LangCount
    ensures LangsBelow(langs + [x])
    ensures var before := LaterLanguages(c, inp, crosses, codes, langs, unset);
      LaterLanguages(c, inp, crosses, codes, langs + [x], unset) ==
        if before.Err? then before else LaterLanguage(before.value, inp, crosses, codes, x, unset)
    decreases |langs|
  {
    assert LangsBelow(langs + [x]);
    if |langs| == 0 {
      assert [x][1..] == [];
    } else {
      assert (langs + [x])[1..] == langs[1..] + [x];
      var first := LaterLanguage(c, inp, crosses, codes, langs[0], unset);
      if first.Ok? {
        LaterSnoc(first.value, inp, crosses, codes, langs[1..], x, unset);
      }
    }
  }

  lemma {:induction false} LaterErrSticks(c: Context, inp: Input, crosses: seq<CrossOutput>, codes: seq<Bytecode>,
                                          langs: seq<nat>, more: seq<nat>, unset: uint8)
    requires |crosses| == LangCount && |codes| == LangCount && LangsBelow(langs) && LangsBelow(more)
    requires LaterLanguages(c, inp, crosses, codes, langs, unset).Err?
    ensures LangsBelow(langs + more)
    ensures LaterLanguages(c, inp, crosses, codes, langs + more, unset) == LaterLanguages(c, inp, crosses, codes, langs, unset)
    decreases |langs|
  {
    assert LangsBelow(langs + more);
    assert (langs + more)[1..] == langs[1..] + more;
    var first := LaterLanguage(c, inp, crosses, codes, langs[0], unset);
    if first.Ok? {
      LaterErrSticks(first.value, inp, crosses, codes, langs[1..], more, unset);
    }
  }

  /** Appending one language to the visiting order runs one more step after the others. */
  lemma RunSnoc(c0: Context, inp: Input, crosses: seq<CrossOutput>, codes: seq<Bytecode>,
                langs: seq<nat>, x: nat, unset: uint8)
    requires |crosses| == LangCount && |codes| == LangCount && LangsBelow(langs) && x < LangCount
    requires RunLanguages(c0, inp, crosses, codes, langs, unset).Ok?
    ensures LangsBelow(langs + [x])
    ensures var c := RunLanguages(c0, inp, crosses, codes, langs, unset).value;
      RunLanguages(c0, inp, crosses, codes, langs + [x], unset) ==
        if |langs| == 0 then FirstLanguage(c, inp, crosses, codes, x, unset)
        else LaterLanguage(c, inp, crosses, codes, x, unset)
  {
    assert LangsBelow(langs + [x]);
    if |langs| == 0 {
      assert langs + [x] == [x];
      assert [x][1..] == [];
    } else {
      assert (langs + [x])[1..] == langs[1..] + [x];
      var c1 := FirstLanguage(c0, inp, crosses, codes, langs[0], unset).value;
      LaterSnoc(c1, inp, crosses, codes, langs[1..], x, unset);
    }
  }

  /** Once a language fails, the languages after it change nothing. */
  lemma RunErrSticks(c0: Context, inp: Input, crosses: seq<CrossOutput>, codes: seq<Bytecode>,
                     langs: seq<nat>, more: seq<nat>, unset: uint8)
    requires |crosses| == LangCount && |codes| == LangCount && LangsBelow(langs) && LangsBelow(more)
    requires RunLanguages(c0, inp, crosses, codes, langs, unset).Err?
    ensures LangsBelow(langs + more)
    ensures RunLanguages(c0, inp, crosses, codes, langs + more, unset) == RunLanguages(c0, inp, crosses, codes, langs, unset)
  {
    assert LangsBelow(langs + more);
    assert (langs + more)[0] == langs[0];
    assert (langs + more)[1..] == langs[1..] + more;
    var first := FirstLanguage(c0, inp, crosses, codes, langs[0], unset);
    if first.Ok? {
      LaterErrSticks(first.value, inp, crosses, codes, langs[1..], more, unset);
    }
  }

  /** A run that visits any language succeeds only for an input declaring exactly one program. */
  lemma RunNeedsOneProgram(c0: Context, inp: Input, crosses: seq<CrossOutput>, codes: seq<Bytecode>,
                           langs: seq<nat>, unset: uint8)
    requires |crosses| == LangCount && |codes| == LangCount && LangsBelow(langs)
    requires |langs| > 0 && RunLanguages(c0, inp, crosses, codes, langs, unset).Ok?
    ensures |inp.programs| == 1
  {
    assert FirstLanguage(c0, inp, crosses, codes, langs[0], unset).Ok?;
  }

  /**
    Lines 186-200 for language `i`, written as the source branches: the error
    check, then, while no reflection has been captured, the program count and
    the reflection pass, then the payload pass.
  */
  function VisitLanguage(c: Context, headerWritten: bool, inp: Input, crosses: seq<CrossOutput>,
                         codes: seq<Bytecode>, i: nat, unset: uint8): (r: Result<Context, Error>)
    requires |crosses| == LangCount && |codes| == LangCount && i < LangCount
    ensures r == if headerWritten then LaterLanguage(c, inp, crosses, codes, i, unset)
                 else FirstLanguage(c, inp, crosses, codes, i, unset)
  {
    if crosses[i].checkError.Some? then Err(CheckFailed(crosses[i].checkError.value))
    else
      var h :- if headerWritten then Ok(c)
               else if |inp.programs| != 1 then Err(ProgramCount(|inp.programs|))
               else HeaderPass(c, inp, crosses[i]);
      PayloadPass(h, inp, crosses[i], codes[i], Wrap8(i), unset)
  }

  lemma SelectedSnoc(mask: nat, i: nat)
    ensures SelectedBetween(mask, 0, i + 1) == SelectedBetween(mask, 0, i) + (if IsSelected(mask, i) then [i] else [])
  {
    SelectedSplit(mask, 0, i, i + 1);
    assert SelectedBetween(mask, i + 1, i + 1) == [];
  }

  lemma VisitStep(c0: Context, c: Context, inp: Input, crosses: seq<CrossOutput>, codes: seq<Bytecode>,
                  mask: nat, i: nat, unset: uint8)
    requires |crosses| == LangCount && |codes| == LangCount && i < LangCount && IsSelected(mask, i)
    requires RunLanguages(c0, inp, crosses, codes, SelectedBetween(mask, 0, i), unset) == Ok(c)
    ensures RunLanguages(c0, inp, crosses, codes, SelectedBetween(mask, 0, i + 1), unset)
      == VisitLanguage(c, |SelectedBetween(mask, 0, i)| > 0, inp, crosses, codes, i, unset)
  {
    var before := SelectedBetween(mask, 0, i);
    SelectedSnoc(mask, i);
    RunSnoc(c0, inp, crosses, codes, before, i, unset);
    var v := VisitLanguage(c, |before| > 0, inp, crosses, codes, i, unset);
  }

  lemma StopEarly(c0: Context, inp: Input, crosses: seq<CrossOutput>, codes: seq<Bytecode>,
                  mask: nat, i: nat, unset: uint8)
    requires |crosses| == LangCount && |codes| == LangCount && i < LangCount
    requires RunLanguages(c0, inp, crosses, codes, SelectedBetween(mask, 0, i + 1), unset).Err?
    ensures RunLanguages(c0, inp, crosses, codes, SelectedBetween(mask, 0, LangCount), unset)
      == RunLanguages(c0, inp, crosses, codes, SelectedBetween(mask, 0, i + 1), unset)
  {
    SelectedSplit(mask, 0, i + 1, LangCount);
    RunErrSticks(c0, inp, crosses, codes, SelectedBetween(mask, 0, i + 1), SelectedBetween(mask, i + 1, LangCount), unset);
  }

  /** One iteration of the language loop, as the loop invariant of `Gen` needs it. */
  lemma LoopStep(c0: Context, c: Context, headerWritten: bool, inp: Input, crosses: seq<CrossOutput>,
                 codes: seq<Bytecode>, mask: nat, i: nat, unset: uint8)
    requires |crosses| == LangCount && |codes| == LangCount && i < LangCount
    requires headerWritten <==> |SelectedBetween(mask, 0, i)| > 0
    requires RunLanguages(c0, inp, crosses, codes, SelectedBetween(mask, 0, i), unset) == Ok(c)
    ensures IsSelected(mask, i) ==>
      var step := VisitLanguage(c, headerWritten, inp, crosses, codes, i, unset);
      && (step.Err? ==> RunLanguages(c0, inp, crosses, codes, SelectedBetween(mask, 0, LangCount), unset) == step)
      && (step.Ok? ==> RunLanguages(c0, inp, crosses, codes, SelectedBetween(mask, 0, i + 1), unset) == step)
      && |SelectedBetween(mask, 0, i + 1)| > 0
    ensures !IsSelected(mask, i) ==>
      && RunLanguages(c0, inp, crosses, codes, SelectedBetween(mask, 0, i + 1), unset) == Ok(c)
      && (headerWritten <==> |SelectedBetween(mask, 0, i + 1)| > 0)
  {
    SelectedSnoc(mask, i);
    if IsSelected(mask, i) {
      VisitStep(c0, c, inp, crosses, codes, mask, i, unset);
      var step := VisitLanguage(c, headerWritten, inp, crosses, codes, i, unset);
      if step.Err? {
        StopEarly(c0, inp, crosses, codes, mask, i, unset);
      }
    } else {
      assert SelectedBetween(mask, 0, i) + [] == SelectedBetween(mask, 0, i);
    }
  }

  /**
    One iteration of the loop on lines 184-201: language `i` is visited only
    when its bit is set. A failure is the failure of the whole run; otherwise
    the run so far has been extended by language `i`, and the header flag
    records whether any language has been visited.
  */
  method VisitIfSelected(c0: Context, c: Context, headerWritten: bool, inp: Input, crosses: seq<CrossOutput>,
                         codes: seq<Bytecode>, mask: nat, i: nat, unset: uint8)
    returns (step: Result<Context, Error>, written: bool)
    requires |crosses| == LangCount && |codes| == LangCount && i < LangCount
    requires headerWritten <==> |SelectedBetween(mask, 0, i)| > 0
    requires RunLanguages(c0, inp, crosses, codes, SelectedBetween(mask, 0, i), unset) == Ok(c)
    ensures step.Err? ==> RunLanguages(c0, inp, crosses, codes, SelectedBetween(mask, 0, LangCount), unset) == step
    ensures step.Ok? ==> RunLanguages(c0, inp, crosses, codes, SelectedBetween(mask, 0, i + 1), unset) == step
    ensures step.Ok? ==> (written <==> |SelectedBetween(mask, 0, i + 1)| > 0)
    ensures !IsSelected(mask, i) ==> step == Ok(c) && written == headerWritten
    ensures IsSelected(mask, i) ==> written
    ensures step == RunLanguages(c0, inp, crosses, codes, SelectedBetween(mask, 0, i + 1), unset)
  {
    LoopStep(c0, c, headerWritten, inp, crosses, codes, mask, i, unset);
    if IsSelected(mask, i) {
      VisitStep(c0, c, inp, crosses, codes, mask, i, unset);
      step := VisitLanguage(c, headerWritten, inp, crosses, codes, i, unset);
      written := true;
    } else {
      step, written := Ok(c), headerWritten;
    }
  }

  datatype GenOutput = GenOutput(ctx: Context, file: seq<uint8>)

  /** What `gen` reports for a run: the final context with the bytes written for it, or the run's error. */
  function Outcome(run: Result<Context, Error>): Result<GenOutput, Error>
  {
    match run
    case Ok(c) => Ok(GenOutput(c, Serialize(c)))
    case Err(e) => Err(e)
  }

  /**
    `lxtap_t::gen` without the file I/O. `c0` is the writer context as it
    stands when `gen` is called (it is never reset); `unset` stands for the
    indeterminate `src_type` of a freshly created program's shaders.
  */
  method Gen(c0: Context, inp: Input, crosses: seq<CrossOutput>, codes: seq<Bytecode>, mask: nat, unset: uint8)
    returns (r: Result<GenOutput, Error>)
    requires |crosses| == LangCount && |codes| == LangCount
    ensures r == Outcome(RunLanguages(c0, inp, crosses, codes, SelectedBetween(mask, 0, LangCount), unset))
  {
    var c := c0;
    var headerWritten := false;
    var i := 0;
    assert SelectedBetween(mask, 0, 0) == [];
    while i < LangCount
      invariant 0 <= i <= LangCount
      invariant headerWritten <==> |SelectedBetween(mask, 0, i)| > 0
      invariant RunLanguages(c0, inp, crosses, codes, SelectedBetween(mask, 0, i), unset) == Ok(c)
    {
      var step, written := VisitIfSelected(c0, c, headerWritten, inp, crosses, codes, mask, i, unset);
      if step.Err? {
        return Outcome(step);
      }
      c, headerWritten := step.value, written;
      i := i + 1;
    }
    r := Outcome(Ok(c));
  }
}

=== FILE: payload.dfy ===
/**
  The payload pass (`lxtap_write_shader_sources_and_blobs`): for one target
  language, finds or creates that language's program and stores the source
  or bytecode of each vs and fs snippet into it.
*/
module Payload {
  import opened Wire
  import opened Records
  import opened Results
  import opened Producer

  /** The first program of language `lang` at or after index `k`. */
  function FindFrom(ps: seq<Program>, lang: uint8, k: nat): (r: Option<nat>)
    requires k <= |ps|
    ensures r.Some? ==> k <= r.value < |ps| && ps[r.value].lang == lang
                        && forall j :: k <= j < r.value ==> ps[j].lang != lang
    ensures r.None? ==> forall j :: k <= j < |ps| ==> ps[j].lang != lang
    decreases |ps| - k
  {
    if k == |ps| then None
    else if ps[k].lang == lang then Some(k)
    else FindFrom(ps, lang, k + 1)
  }

  /** Lines 129-135: the search loop, which stops at the first program of the language. */
  function FindProgram(ps: seq<Program>, lang: uint8): Option<nat>
  {
    FindFrom(ps, lang, 0)
  }

  /** A default-constructed program: its shaders' `src_type` is the indeterminate byte `unset`. */
  function NewProgram(lang: uint8, unset: uint8): Program
  {
    Program(lang, Shader(unset, []), Shader(unset, []))
  }

  /**
    Lines 129-142: the program list after lookup-or-create, and the index of
    the program to fill. A new program is appended only when no program of the
    language exists, and the index is always the first program of the language.
  */
  function FindOrCreate(ps: seq<Program>, lang: uint8, unset: uint8): (r: (seq<Program>, nat))
    ensures ps <= r.0
    ensures |r.0| == |ps| + 1 <==> forall j :: 0 <= j < |ps| ==> ps[j].lang != lang
    ensures |r.0| == |ps| || |r.0| == |ps| + 1
    ensures r.1 < |r.0| && r.0[r.1].lang == lang && forall j :: 0 <= j < r.1 ==> r.0[j].lang != lang
    ensures r.1 == |ps| ==> r.0[r.1] == NewProgram(lang, unset)
  {
    var found := FindProgram(ps, lang);
    if found.Some? then (ps, found.value) else (ps + [NewProgram(lang, unset)], |ps|)
  }

  /**
    Lines 144-161: `ms` is a reference bound to `vs`; for a fragment snippet
    line 150 copies `fs` into it instead of rebinding it, and both fields are
    then overwritten. Whatever the snippet's stage, the payload ends in `vs`
    and `fs` is untouched.
  */
  function StorePayload(p: Program, kind: SnippetKind, payload: Shader): (r: Program)
    ensures r.lang == p.lang && r.vs == payload && r.fs == p.fs
  {
    var q := if kind == FragmentSnippet then p.(vs := p.fs) else p;
    q.(vs := q.vs.(srcType := payload.srcType, source := payload.source))
  }

  /**
    Lines 154-161: a bytecode blob, when there is one, is stored verbatim as
    bytecode; otherwise the generated source text is stored as source code.
  */
  function PayloadOf(src: CrossSource, blob: Option<seq<uint8>>): (s: Shader)
    ensures s.srcType == ByteCode <==> blob.Some?
    ensures s.srcType == SourceCode <==> blob.None?
    ensures s.source == if blob.Some? then blob.value else src.code
  {
    if blob.Some? then Shader(ByteCode, blob.value) else Shader(SourceCode, src.code)
  }

  /** The body of the snippet loop for a vs or fs snippet whose source was found. */
  function PayloadStep(ps: seq<Program>, kind: SnippetKind, src: CrossSource, blob: Option<seq<uint8>>,
                       slang: uint8, unset: uint8): seq<Program>
  {
    var (qs, i) := FindOrCreate(ps, slang, unset);
    qs[i := StorePayload(qs[i], kind, PayloadOf(src, blob))]
  }

  /** The snippet loop from index `k` on. */
  function PayloadFrom(ps: seq<Program>, inp: Input, cross: CrossOutput, code: Bytecode,
                       slang: uint8, unset: uint8, k: nat): Result<seq<Program>, Error>
    decreases |inp.snippets| - k
  {
    if k >= |inp.snippets| then Ok(ps)
    else if inp.snippets[k] == OtherSnippet then PayloadFrom(ps, inp, cross, code, slang, unset, k + 1)
    else
      var src := SourceAt(cross, k);
      if src.None? then Err(MissingSource)
      else
        var ps' := PayloadStep(ps, inp.snippets[k], src.value, BlobAt(code, k), slang, unset);
        PayloadFrom(ps', inp, cross, code, slang, unset, k + 1)
  }

  /** `lxtap_write_shader_sources_and_blobs` for language `slang`. */
  function PayloadPass(c: Context, inp: Input, cross: CrossOutput, code: Bytecode,
                       slang: uint8, unset: uint8): Result<Context, Error>
  {
    var ps :- PayloadFrom(c.programs, inp, cross, code, slang, unset, 0);
    Ok(c.(programs := ps))
  }

  // ---------------------------------------------------------------- what the pass amounts to

  /** Storing one payload into the `vs` of the language's program, created if need be. */
  function Install(ps: seq<Program>, lang: uint8, unset: uint8, sh: Shader): seq<Program>
  {
    var (qs, i) := FindOrCreate(ps, lang, unset);
    qs[i := qs[i].(vs := sh)]
  }

  /** The last vs or fs snippet at or after index `k`. */
  function LastStage(snippets: seq<SnippetKind>, k: nat): (r: Option<nat>)
    ensures r.Some? ==> k <= r.value < |snippets| && snippets[r.value] != OtherSnippet
                        && forall j :: r.value < j < |snippets| ==> snippets[j] == OtherSnippet
    ensures r.None? ==> forall j :: k <= j < |snippets| ==> snippets[j] == OtherSnippet
    decreases |snippets| - k
  {
    if k >= |snippets| then None
    else
      var later := LastStage(snippets, k + 1);
      if later.Some? then later
      else if snippets[k] != OtherSnippet then Some(k)
      else None
  }

  predicate DistinctLangs(ps: seq<Program>)
  {
    forall i, j :: 0 <= i < j < |ps| ==> ps[i].lang != ps[j].lang
  }

  /**
    Installing twice into the same language's program is installing the
    second payload: the first install leaves a program of that language,
    so the second one creates nothing.
  */
  lemma InstallTwice(ps: seq<Program>, lang: uint8, unset: uint8, a: Shader, b: Shader)
    ensures Install(Install(ps, lang, unset, a), lang, unset, b) == Install(ps, lang, unset, b)
  {
    var (qs, i) := FindOrCreate(ps, lang, unset);
    var once := qs[i := qs[i].(vs := a)];
    var found := FindProgram(once, lang);
    assert once[i].lang == lang;
    assert forall j :: 0 <= j < i ==> once[j].lang != lang;
    assert found == Some(i);
  }

  /**
    What an install does: the list grows by one program exactly when the
    language had none; the language's first program holds the payload in `vs`
    and keeps its `fs`; every other program is unchanged.
  */
  lemma InstallEffect(ps: seq<Program>, lang: uint8, unset: uint8, sh: Shader)
    ensures var r := Install(ps, lang, unset, sh);
      && (FindProgram(ps, lang).Some? ==> |r| == |ps|)
      && (FindProgram(ps, lang).None? ==> |r| == |ps| + 1 && r[|ps|] == Program(lang, sh, Shader(unset, [])))
      && FindProgram(r, lang).Some?
      && var i := FindProgram(r, lang).value;
         && i == (if FindProgram(ps, lang).Some? then FindProgram(ps, lang).value else |ps|)
         && r[i].lang == lang && r[i].vs == sh
         && (i < |ps| ==> r[i].fs == ps[i].fs)
         && forall j :: 0 <= j < |ps| && j != i ==> r[j] == ps[j]
  {
    var (qs, i) := FindOrCreate(ps, lang, unset);
    var r := qs[i := qs[i].(vs := sh)];
    assert r[i].lang == lang;
    assert forall j :: 0 <= j < i ==> r[j].lang != lang;
    var f := FindProgram(r, lang);
    if f.Some? {
      assert f.value == i;
    }
    assert f == Some(i);
  }

  /** Installing never gives two programs the same language. */
  lemma InstallKeepsDistinct(ps: seq<Program>, lang: uint8, unset: uint8, sh: Shader)
    requires DistinctLangs(ps)
    ensures DistinctLangs(Install(ps, lang, unset, sh))
  {
    var (qs, i) := FindOrCreate(ps, lang, unset);
    assert DistinctLangs(qs);
  }

  /**
    The snippet loop amounts to a single install of the LAST vs or fs
    snippet's payload: every earlier payload is overwritten in the same `vs`.
  */
  lemma {:induction false} PayloadFromEffect(ps: seq<Program>, inp: Input, cross: CrossOutput, code: Bytecode,
                                             slang: uint8, unset: uint8, k: nat)
    requires PayloadFrom(ps, inp, cross, code, slang, unset, k).Ok?
    ensures var r := PayloadFrom(ps, inp, cross, code, slang, unset, k).value;
      var last := LastStage(inp.snippets, k);
      && (last.None? ==> r == ps)
      && (last.Some? ==>
            && SourceAt(cross, last.value).Some?
            && r == Install(ps, slang, unset, PayloadOf(SourceAt(cross, last.value).value, BlobAt(code, last.value))))
    decreases |inp.snippets| - k
  {
    if k < |inp.snippets| {
      if inp.snippets[k] == OtherSnippet {
        PayloadFromEffect(ps, inp, cross, code, slang, unset, k + 1);
      } else {
        var src := SourceAt(cross, k).value;
        var sh := PayloadOf(src, BlobAt(code, k));
        var ps' := PayloadStep(ps, inp.snippets[k], src, BlobAt(code, k), slang, unset);
        assert ps' == Install(ps, slang, unset, sh);
        PayloadFromEffect(ps', inp, cross, code, slang, unset, k + 1);
        var later := LastStage(inp.snippets, k + 1);
        if later.Some? {
          var j := later.value;
          InstallTwice(ps, slang, unset, sh, PayloadOf(SourceAt(cross, j).value, BlobAt(code, j)));
        }
      }
    }
  }

  /** The loop fails exactly when some vs or fs snippet has no compiled source. */
  lemma {:induction false} PayloadFromFails(ps: seq<Program>, inp: Input, cross: CrossOutput, code: Bytecode,
                                            slang: uint8, unset: uint8, k: nat)
    ensures PayloadFrom(ps, inp, cross, code, slang, unset, k).Err? <==>
      exists j :: k <= j < |inp.snippets| && inp.snippets[j] != OtherSnippet && SourceAt(cross, j).None?
    decreases |inp.snippets| - k
  {
    if k < |inp.snippets| {
      if inp.snippets[k] == OtherSnippet {
        PayloadFromFails(ps, inp, cross, code, slang, unset, k + 1);
      } else if SourceAt(cross, k).Some? {
        var ps' := PayloadStep(ps, inp.snippets[k], SourceAt(cross, k).value, BlobAt(code, k), slang, unset);
        PayloadFromFails(ps', inp, cross, code, slang, unset, k + 1);
      }
    }
  }

  /**
    The payload pass for one language: it touches only the program list; if
    the input has no vs or fs snippet the list is unchanged, otherwise the
    language's program (appended at the end if it was missing) holds the last
    snippet's payload in `vs`, its `fs` is never assigned, the other programs
    are unchanged, and languages stay distinct.
  */
  lemma PayloadPassEffect(c: Context, inp: Input, cross: CrossOutput, code: Bytecode, slang: uint8, unset: uint8)
    requires PayloadPass(c, inp, cross, code, slang, unset).Ok?
    ensures var r := PayloadPass(c, inp, cross, code, slang, unset).value;
      var last := LastStage(inp.snippets, 0);
      && r.(programs := c.programs) == c
      && (last.None? ==> r.programs == c.programs)
      && (last.Some? ==>
            && SourceAt(cross, last.value).Some?
            && var sh := PayloadOf(SourceAt(cross, last.value).value, BlobAt(code, last.value));
            && |r.programs| == (if FindProgram(c.programs, slang).Some? then |c.programs| else |c.programs| + 1)
            && FindProgram(r.programs, slang).Some?
            && var i := FindProgram(r.programs, slang).value;
               && i == (if FindProgram(c.programs, slang).Some? then FindProgram(c.programs, slang).value else |c.programs|)
               && r.programs[i].vs == sh
               && (i < |c.programs| ==> r.programs[i].fs == c.programs[i].fs)
               && (i == |c.programs| ==> r.programs[i] == Program(slang, sh, Shader(unset, [])))
               && forall j :: 0 <= j < |c.programs| && j != i ==> r.programs[j] == c.programs[j])
      && (DistinctLangs(c.programs) ==> DistinctLangs(r.programs))
  {
    PayloadFromEffect(c.programs, inp, cross, code, slang, unset, 0);
    var last := LastStage(inp.snippets, 0);
    if last.Some? {
      var sh := PayloadOf(SourceAt(cross, last.value).value, BlobAt(code, last.value));
      InstallEffect(c.programs, slang, unset, sh);
      if DistinctLangs(c.programs) {
        InstallKeepsDistinct(c.programs, slang, unset, sh);
      }
    }
  }
}

=== FILE: producer.dfy ===
/**
  The producer-side data the aggregation passes consume. The cross-compiler's
  reflection (`spirvcross_t`), the bytecode compiler's blobs (`bytecode_t`)
  and the parsed input (`input_t`) are reduced to the fields the passes read;
  their lookups become total functions returning `Option`.
*/
module Producer {
  import opened Wire
  import opened Results

  /** One reflected vertex input; `slot` is negative for inputs without a location. */
  datatype ReflInput = ReflInput(slot: int, name: seq<uint8>, kind: int)
  datatype ReflUniform = ReflUniform(name: seq<uint8>, kind: int, offset: int, arrayCount: int)
  datatype ReflBlock = ReflBlock(slot: int, name: seq<uint8>, size: int, uniforms: seq<ReflUniform>)
  datatype ReflImage = ReflImage(slot: int, name: seq<uint8>, kind: int)

  /** The reflection of one compiled snippet. */
  datatype StageRefl = StageRefl(inputs: seq<ReflInput>, blocks: seq<ReflBlock>, images: seq<ReflImage>)

  /** One cross-compiled snippet: its reflection and its generated source text. */
  datatype CrossSource = CrossSource(refl: StageRefl, code: seq<uint8>)

  datatype SnippetKind = VertexSnippet | FragmentSnippet | OtherSnippet

  /** A declared program: the snippet indices its vs and fs names map to (`None` when a name is unknown). */
  datatype ProgramDecl = ProgramDecl(vsSnippet: Option<nat>, fsSnippet: Option<nat>)

  datatype Input = Input(programs: seq<ProgramDecl>, snippets: seq<SnippetKind>)

  /**
    The cross-compiler output for one language: the verdict of the error
    check for it, and the compiled source of each snippet index (`None` when
    the snippet has none).
  */
  datatype CrossOutput = CrossOutput(checkError: Option<string>, sources: seq<Option<CrossSource>>)

  /** The bytecode compiler's output for one language, one optional blob per snippet index. */
  datatype Bytecode = Bytecode(blobs: seq<Option<seq<uint8>>>)

  datatype Error =
    | CheckFailed(message: string)   // output_t::check_errors reported an error
    | ProgramCount(count: nat)       // more or fewer than one program: exit(1)
    | UnknownSnippet                 // snippet_map.at throws
    | MissingSource                  // the assert on a negative source index

  /** `find_source_by_snippet_index`, as a lookup that may fail. */
  function SourceAt(cross: CrossOutput, k: nat): Option<CrossSource>
  {
    if k < |cross.sources| then cross.sources[k] else None
  }

  /** `find_blob_by_snippet_index`, as a lookup that may fail. */
  function BlobAt(code: Bytecode, k: nat): Option<seq<uint8>>
  {
    if k < |code.blobs| then code.blobs[k] else None
  }
}

=== FILE: properties.dfy ===
/**
  Properties of a whole `gen` run, for the languages visited in order:
  the reflection sections come from the first language alone, each language
  contributes one new program holding its last snippet's payload in `vs`,
  and the fs uniform block is never marked present.
*/
module Aggregation {
  import opened Wire
  import opened Records
  import opened Results
  import opened Producer
  import opened Reflect
  import opened Payload
  import opened Driver
  import opened Decoding

  /**
    What a successful visit does: the language's error check passed; a later
    visit changes only the program list; the first visit needs exactly one
    declared program and leaves every other section as that language's
    reflection pass made it.
  */
  lemma VisitLanguageEffect(c: Context, headerWritten: bool, inp: Input, crosses: seq<CrossOutput>,
                            codes: seq<Bytecode>, i: nat, unset: uint8)
    requires |crosses| == LangCount && |codes| == LangCount && i < LangCount
    requires VisitLanguage(c, headerWritten, inp, crosses, codes, i, unset).Ok?
    ensures crosses[i].checkError.None?
    ensures headerWritten ==>
      VisitLanguage(c, headerWritten, inp, crosses, codes, i, unset).value.(programs := c.programs) == c
    ensures !headerWritten ==>
      && |inp.programs| == 1
      && HeaderPass(c, inp, crosses[i]).Ok?
      && var h := HeaderPass(c, inp, crosses[i]).value;
         VisitLanguage(c, headerWritten, inp, crosses, codes, i, unset).value.(programs := h.programs) == h
  {
    if headerWritten {
      PayloadPassEffect(c, inp, crosses[i], codes[i], Wrap8(i), unset);
    } else {
      var h := HeaderPass(c, inp, crosses[i]).value;
      PayloadPassEffect(h, inp, crosses[i], codes[i], Wrap8(i), unset);
    }
  }

  /** The payload passes after the first language change only the program list. */
  lemma {:induction false} LaterKeepsReflection(c: Context, inp: Input, crosses: seq<CrossOutput>, codes: seq<Bytecode>,
                                                langs: seq<nat>, unset: uint8)
    requires |crosses| == LangCount && |codes| == LangCount && LangsBelow(langs)
    requires LaterLanguages(c, inp, crosses, codes, langs, unset).Ok?
    ensures LaterLanguages(c, inp, crosses, codes, langs, unset).value.(programs := c.programs) == c
    decreases |langs|
  {
    if |langs| > 0 {
      var l := langs[0];
      PayloadPassEffect(c, inp, crosses[l], codes[l], Wrap8(l), unset);
      var c' := LaterLanguage(c, inp, crosses, codes, l, unset).value;
      LaterKeepsReflection(c', inp, crosses, codes, langs[1..], unset);
    }
  }

  /**
    Reflection is captured from the first visited language only: every
    section but the program list is what the reflection pass of that one
    language made of the starting context.
  */
  lemma GenReflectionFromFirst(c0: Context, inp: Input, crosses: seq<CrossOutput>, codes: seq<Bytecode>,
                               langs: seq<nat>, unset: uint8)
    requires |crosses| == LangCount && |codes| == LangCount && LangsBelow(langs)
    requires |langs| > 0 && RunLanguages(c0, inp, crosses, codes, langs, unset).Ok?
    ensures HeaderPass(c0, inp, crosses[langs[0]]).Ok?
    ensures var c := RunLanguages(c0, inp, crosses, codes, langs, unset).value;
      var h := HeaderPass(c0, inp, crosses[langs[0]]).value;
      c.(programs := h.programs) == h
  {
    var l := langs[0];
    var h := HeaderPass(c0, inp, crosses[l]).value;
    PayloadPassEffect(h, inp, crosses[l], codes[l], Wrap8(l), unset);
    var c1 := FirstLanguage(c0, inp, crosses, codes, l, unset).value;
    LaterKeepsReflection(c1, inp, crosses, codes, langs[1..], unset);
  }

  /** The fs block keeps the presence flag it had when `gen` started: nothing ever fills it. */
  lemma GenFsBlockUnchanged(c0: Context, inp: Input, crosses: seq<CrossOutput>, codes: seq<Bytecode>,
                            langs: seq<nat>, unset: uint8)
    requires |crosses| == LangCount && |codes| == LangCount && LangsBelow(langs)
    requires RunLanguages(c0, inp, crosses, codes, langs, unset).Ok?
    ensures RunLanguages(c0, inp, crosses, codes, langs, unset).value.fsBlock.isEmpty == c0.fsBlock.isEmpty
    ensures c0 == EmptyContext() ==> View(RunLanguages(c0, inp, crosses, codes, langs, unset).value).fsBlock == None
  {
    if |langs| > 0 {
      GenReflectionFromFirst(c0, inp, crosses, codes, langs, unset);
      FsBlockStaysAbsent(c0, inp.programs, crosses[langs[0]]);
    }
  }

  /**
    The program a language gets when it had none: its tag, the last vs or fs
    snippet's payload in `vs`, and the untouched default `fs`.
  */
  predicate IsFreshProgram(p: Program, inp: Input, cross: CrossOutput, code: Bytecode, l: nat, unset: uint8)
  {
    var last := LastStage(inp.snippets, 0);
    && last.Some?
    && SourceAt(cross, last.value).Some?
    && p == Program(Wrap8(l), PayloadOf(SourceAt(cross, last.value).value, BlobAt(code, last.value)), Shader(unset, []))
  }

  predicate Increasing(langs: seq<nat>)
  {
    forall a, b :: 0 <= a < b < |langs| ==> langs[a] < langs[b]
  }

  predicate NoneOf(ps: seq<Program>, langs: seq<nat>)
  {
    forall k, j :: 0 <= k < |ps| && 0 <= j < |langs| ==> ps[k].lang != Wrap8(langs[j])
  }

  lemma PayloadAppendsFresh(c: Context, inp: Input, cross: CrossOutput, code: Bytecode, l: nat, unset: uint8)
    requires l < LangCount && PayloadPass(c, inp, cross, code, Wrap8(l), unset).Ok?
    requires LastStage(inp.snippets, 0).Some?
    requires forall k :: 0 <= k < |c.programs| ==> c.programs[k].lang != Wrap8(l)
    ensures var r := PayloadPass(c, inp, cross, code, Wrap8(l), unset).value;
      && |r.programs| == |c.programs| + 1
      && r.programs[..|c.programs|] == c.programs
      && IsFreshProgram(r.programs[|c.programs|], inp, cross, code, l, unset)
  {
    PayloadPassEffect(c, inp, cross, code, Wrap8(l), unset);
    assert FindFrom(c.programs, Wrap8(l), 0).None?;
  }

  lemma NoneOfRest(ps: seq<Program>, ps': seq<Program>, langs: seq<nat>)
    requires |langs| > 0 && LangsBelow(langs) && Increasing(langs) && NoneOf(ps, langs)
    requires |ps'| == |ps| + 1 && ps'[..|ps|] == ps && ps'[|ps|].lang == Wrap8(langs[0])
    ensures NoneOf(ps', langs[1..])
  {
    forall k, j | 0 <= k < |ps'| && 0 <= j < |langs[1..]|
      ensures ps'[k].lang != Wrap8(langs[1..][j])
    {
      assert langs[1..][j] == langs[j + 1];
      if k < |ps| {
        assert ps'[k] == ps'[..|ps|][k];
      } else {
        assert langs[0] < langs[j + 1];
      }
    }
  }

  /** Later languages append one fresh program each, in visiting order. */
  lemma {:induction false} LaterAppendsFresh(c: Context, inp: Input, crosses: seq<CrossOutput>, codes: seq<Bytecode>,
                                             langs: seq<nat>, unset: uint8)
    requires |crosses| == LangCount && |codes| == LangCount && LangsBelow(langs) && Increasing(langs)
    requires LastStage(inp.snippets, 0).Some?
    requires NoneOf(c.programs, langs)
    requires LaterLanguages(c, inp, crosses, codes, langs, unset).Ok?
    ensures var r := LaterLanguages(c, inp, crosses, codes, langs, unset).value;
      && |r.programs| == |c.programs| + |langs|
      && r.programs[..|c.programs|] == c.programs
      && forall j :: 0 <= j < |langs| ==>
           IsFreshProgram(r.programs[|c.programs| + j], inp, crosses[langs[j]], codes[langs[j]], langs[j], unset)
    decreases |langs|
  {
    if |langs| > 0 {
      var l := langs[0];
      PayloadAppendsFresh(c, inp, crosses[l], codes[l], l, unset);
      var c' := LaterLanguage(c, inp, crosses, codes, l, unset).value;
      NoneOfRest(c.programs, c'.programs, langs);
      LaterAppendsFresh(c', inp, crosses, codes, langs[1..], unset);
      var r := LaterLanguages(c', inp, crosses, codes, langs[1..], unset).value;
      assert r == LaterLanguages(c, inp, crosses, codes, langs, unset).value;
      assert r.programs[..|c.programs|] == c.programs by {
        assert r.programs[..|c'.programs|][..|c.programs|] == r.programs[..|c.programs|];
      }
      forall j | 0 <= j < |langs|
        ensures IsFreshProgram(r.programs[|c.programs| + j], inp, crosses[langs[j]], codes[langs[j]], langs[j], unset)
      {
        if j == 0 {
          assert r.programs[|c.programs|] == r.programs[..|c'.programs|][|c.programs|];
        } else {
          assert langs[1..][j - 1] == langs[j];
          assert |c.programs| + j == |c'.programs| + (j - 1);
        }
      }
    } else {
      assert c.programs[..|c.programs|] == c.programs;
    }
  }

  /**
    Starting from no programs, when the input has a vs or fs snippet, a
    successful run leaves exactly one program per visited language, in
    visiting order, each holding that language's last snippet payload in
    `vs` and a never-assigned `fs`.
  */
  lemma GenProgramsPerLanguage(c0: Context, inp: Input, crosses: seq<CrossOutput>, codes: seq<Bytecode>,
                               langs: seq<nat>, unset: uint8)
    requires |crosses| == LangCount && |codes| == LangCount && LangsBelow(langs) && Increasing(langs)
    requires c0.programs == [] && LastStage(inp.snippets, 0).Some?
    requires RunLanguages(c0, inp, crosses, codes, langs, unset).Ok?
    ensures var r := RunLanguages(c0, inp, crosses, codes, langs, unset).value;
      && |r.programs| == |langs|
      && forall j :: 0 <= j < |langs| ==>
           IsFreshProgram(r.programs[j], inp, crosses[langs[j]], codes[langs[j]], langs[j], unset)
  {
    if |langs| > 0 {
      var l := langs[0];
      var h := HeaderPass(c0, inp, crosses[l]).value;
      FsBlockStaysAbsent(c0, inp.programs, crosses[l]);
      PayloadAppendsFresh(h, inp, crosses[l], codes[l], l, unset);
      var c1 := FirstLanguage(c0, inp, crosses, codes, l, unset).value;
      assert |c1.programs| == 1 && c1.programs[0].lang == Wrap8(l);
      NoneOfRest([], c1.programs, langs);
      LaterAppendsFresh(c1, inp, crosses, codes, langs[1..], unset);
      var r := LaterLanguages(c1, inp, crosses, codes, langs[1..], unset).value;
      forall j | 0 <= j < |langs|
        ensures IsFreshProgram(r.programs[j], inp, crosses[langs[j]], codes[langs[j]], langs[j], unset)
      {
        if j == 0 {
          assert r.programs[0] == r.programs[..1][0];
        } else {
          assert langs[1..][j - 1] == langs[j];
        }
      }
    }
  }
}

=== FILE: records.dfy ===
/**
  The composite records of the lxtap format. Every record has a `StructSize`
  (its `struct_size()`, a wrapping `uint16_t`) and an `Encode` (its `write()`),
  which emits a 2-byte size prefix and then the fields in declared order.
  `EncodeArray` and `EncodeOptional` are the `array<T>` and `optional<T>`
  wrappers; `Serialize` is `WriteContext::write` as returned by `Writer::gen`.
*/
module Records {
  import opened Wire

  // attr_type (also used for uniform types)
  const AttrInvalid: uint8 := 0
  const Float1: uint8 := 1
  const Float2: uint8 := 2
  const Float3: uint8 := 3
  const Float4: uint8 := 4
  const Mat4: uint8 := 5

  // texture_type
  const TextureInvalid: uint8 := 0
  const Image2D: uint8 := 1
  const ImageCube: uint8 := 2
  const Image3D: uint8 := 3
  const ImageArray: uint8 := 4

  // source_type
  const SourceCode: uint8 := 0
  const ByteCode: uint8 := 1

  /**
    Number of target languages visited by `gen` (`slang_t::NUM`), taken to be
    `lang_type::NUM`: GLSL330 = 0 … METAL_SIM = 6.
  */
  const LangCount: nat := 7

  const Magic0: uint8 := 0xCF
  const Magic1: uint8 := 0xBA
  const Version: uint16 := 1

  /*
    Enumerations are kept as their byte values: the producer casts arbitrary
    integers into them, so a value outside the named constants can occur.
  */
  datatype Attr = Attr(slot: uint16, name: seq<uint8>, kind: uint8)
  datatype Uniform = Uniform(name: seq<uint8>, kind: uint8, arrayCount: uint8, offset: uint8)
  datatype UniformBlock = UniformBlock(slot: uint8, name: seq<uint8>, size: uint8, params: seq<Uniform>)
  datatype Texture = Texture(slot: uint8, name: seq<uint8>, kind: uint8)
  datatype Shader = Shader(srcType: uint8, source: seq<uint8>)
  datatype Program = Program(lang: uint8, vs: Shader, fs: Shader)

  /** `optional<T>`: the value is stored even while the flag says empty. */
  datatype Optional<T> = Optional(value: T, isEmpty: bool)

  datatype Context = Context(
    attrs: seq<Attr>,
    vsBlock: Optional<UniformBlock>,
    fsBlock: Optional<UniformBlock>,
    textures: Optional<seq<Texture>>,
    programs: seq<Program>)

  /** The little-endian `uint16_t` at the head of an encoding. */
  function Prefix(r: seq<uint8>): uint16
    requires |r| >= 2
  {
    U16Value(r[0], r[1])
  }

  /** A context with static storage duration: zero-initialised, every optional empty. */
  function EmptyContext(): Context
  {
    Context([], Optional(UniformBlock(0, [], 0, []), true), Optional(UniformBlock(0, [], 0, []), true),
             Optional([], true), [])
  }

  // ---------------------------------------------------------------- attr_t

  function AttrStructSize(a: Attr): uint16
  {
    Wrap16(2 + BytesStructSize(a.name) + 1)
  }

  function EncodeAttr(a: Attr): (r: seq<uint8>)
    ensures |r| == |a.name| + 7
    ensures Prefix(r) == AttrStructSize(a) == (|r| - 2) % TWO16
  {
    ModAbsorb(|a.name| + 2, 3);
    WriteU16(AttrStructSize(a)) + WriteU16(a.slot) + EncodeBytes(a.name) + [a.kind]
  }

  // ---------------------------------------------------------------- array<T>

  /** The element writes of an array, back to back, in sequence order. */
  function Concat<T>(xs: seq<T>, enc: T -> seq<uint8>): seq<uint8>
  {
    if |xs| == 0 then [] else enc(xs[0]) + Concat(xs[1..], enc)
  }

  /** The exact sum of the element sizes `ss`. */
  function SumSizes<T>(xs: seq<T>, ss: T -> uint16): nat
  {
    if |xs| == 0 then 0 else ss(xs[0]) + SumSizes(xs[1..], ss)
  }

  /** The `uint16_t s` accumulator of the loop in `array<T>::struct_size`, wrapping at each step. */
  function SumWrapped<T>(acc: uint16, xs: seq<T>, ss: T -> uint16): uint16
    decreases |xs|
  {
    if |xs| == 0 then acc else SumWrapped(Wrap16(acc + ss(xs[0])), xs[1..], ss)
  }

  /** Reducing one summand modulo 2^16 does not change the sum modulo 2^16. */
  lemma ModAbsorb(x: int, y: int)
    ensures (x % TWO16 + y) % TWO16 == (x + y) % TWO16
  {
    var q := x / TWO16;
    assert x % TWO16 + y == (x + y) + TWO16 * (-q);
  }

  lemma ModSmall(x: int)
    requires 0 <= x < TWO16
    ensures x % TWO16 == x
  {
  }

  /** A value and its residue differ by a multiple of 2^16. */
  lemma ModDiff(x: int)
    ensures (x - x % TWO16) % TWO16 == 0
  {
    var q := x / TWO16;
    assert x - x % TWO16 == TWO16 * q;
  }

  lemma {:induction false} SumWrappedIsSumModulo<T>(acc: uint16, xs: seq<T>, ss: T -> uint16)
    ensures SumWrapped(acc, xs, ss) == (acc + SumSizes(xs, ss)) % TWO16
    decreases |xs|
  {
    if |xs| > 0 {
      SumWrappedIsSumModulo(Wrap16(acc + ss(xs[0])), xs[1..], ss);
      ModAbsorb(acc + ss(xs[0]), SumSizes(xs[1..], ss));
    }
  }

  /**
    `array<T>::struct_size`: 2 for the count plus the sum of the element
    `struct_size`s, which leaves out the 2-byte prefix every element writes.
  */
  function ArrayStructSize<T>(xs: seq<T>, ss: T -> uint16): (n: uint16)
    ensures n == (2 + SumSizes(xs, ss)) % TWO16
  {
    SumWrappedIsSumModulo(0, xs, ss);
    Wrap16(2 + SumWrapped(0, xs, ss))
  }

  /** `array<T>::write`: the element count as a `uint16_t`, then every element's full write. */
  function EncodeArray<T>(xs: seq<T>, enc: T -> seq<uint8>): (r: seq<uint8>)
    ensures |r| >= 2 && Prefix(r) == |xs| % TWO16
    ensures r[2..] == Concat(xs, enc)
    ensures |xs| == 0 ==> r == [0, 0]
  {
    WriteU16(Wrap16(|xs|)) + Concat(xs, enc)
  }

  /** Adding a multiple of 2^16 does not change a value modulo 2^16. */
  lemma ModShift(x: int, d: int)
    requires d % TWO16 == 0
    ensures (x + d) % TWO16 == x % TWO16
  {
    var q := d / TWO16;
    assert x + d == x + TWO16 * q;
  }

  lemma {:induction false} ConcatOvershoot<T>(xs: seq<T>, enc: T -> seq<uint8>, ss: T -> uint16)
    requires forall i :: 0 <= i < |xs| ==> (|enc(xs[i])| - 2 - ss(xs[i])) % TWO16 == 0
    ensures (|Concat(xs, enc)| - 2 * |xs| - SumSizes(xs, ss)) % TWO16 == 0
    decreases |xs|
  {
    if |xs| > 0 {
      ConcatOvershoot(xs[1..], enc, ss);
      var d0 := |enc(xs[0])| - 2 - ss(xs[0]);
      var d1 := |Concat(xs[1..], enc)| - 2 * |xs[1..]| - SumSizes(xs[1..], ss);
      assert |Concat(xs, enc)| - 2 * |xs| - SumSizes(xs, ss) == d1 + d0;
      ModShift(d1, d0);
    }
  }

  /**
    When every element writes 2 bytes more than its `struct_size` (modulo
    2^16), the array's `struct_size` falls short of the array's write by
    exactly 2 bytes per element, instead of matching it.
  */
  lemma ArrayUndercount<T>(xs: seq<T>, enc: T -> seq<uint8>, ss: T -> uint16)
    requires forall i :: 0 <= i < |xs| ==> (|enc(xs[i])| - 2 - ss(xs[i])) % TWO16 == 0
    ensures ArrayStructSize(xs, ss) == (|EncodeArray(xs, enc)| - 2 * |xs|) % TWO16
  {
    ConcatOvershoot(xs, enc, ss);
    var d := |Concat(xs, enc)| - 2 * |xs| - SumSizes(xs, ss);
    assert |EncodeArray(xs, enc)| - 2 * |xs| == 2 + SumSizes(xs, ss) + d;
    ModShift(2 + SumSizes(xs, ss), d);
  }

  // ---------------------------------------------------------------- uniform_t

  function UniformStructSize(u: Uniform): uint16
  {
    Wrap16(BytesStructSize(u.name) + 1 + 1 + 1)
  }

  function EncodeUniform(u: Uniform): (r: seq<uint8>)
    ensures |r| == |u.name| + 7
    ensures Prefix(r) == UniformStructSize(u) == (|r| - 2) % TWO16
  {
    ModAbsorb(|u.name| + 2, 3);
    WriteU16(UniformStructSize(u)) + EncodeBytes(u.name) + [u.kind, u.arrayCount, u.offset]
  }

  // ---------------------------------------------------------------- uniform_block_t

  function BlockStructSize(b: UniformBlock): uint16
  {
    Wrap16(1 + BytesStructSize(b.name) + 1 + ArrayStructSize(b.params, UniformStructSize))
  }

  lemma UniformOvershoot(u: Uniform)
    ensures (|EncodeUniform(u)| - 2 - UniformStructSize(u)) % TWO16 == 0
  {
    ModDiff(|EncodeUniform(u)| - 2);
  }

  /**
    The prefix of a uniform block is short of the body it writes by 2 bytes
    per uniform, because `array<T>::struct_size` omits each element's prefix.
  */
  lemma BlockUndercount(b: UniformBlock)
    ensures BlockStructSize(b) == (|b.name| + 6 + |Concat(b.params, EncodeUniform)| - 2 * |b.params|) % TWO16
  {
    forall i | 0 <= i < |b.params|
      ensures (|EncodeUniform(b.params[i])| - 2 - UniformStructSize(b.params[i])) % TWO16 == 0
    {
      UniformOvershoot(b.params[i]);
    }
    ArrayUndercount(b.params, EncodeUniform, UniformStructSize);
    var a := ArrayStructSize(b.params, UniformStructSize);
    var e := |Concat(b.params, EncodeUniform)| + 2 - 2 * |b.params|;
    assert a == e % TWO16;
    var n := |b.name|;
    assert BlockStructSize(b) == (2 + (n + 2) % TWO16 + e % TWO16) % TWO16;
    ModAbsorb(n + 2, 2 + e % TWO16);
    ModAbsorb(e, n + 4);
  }

  function EncodeBlock(b: UniformBlock): (r: seq<uint8>)
    ensures |r| == |b.name| + 8 + |Concat(b.params, EncodeUniform)|
    ensures Prefix(r) == BlockStructSize(b)
    ensures BlockStructSize(b) == (|r| - 2 - 2 * |b.params|) % TWO16
  {
    BlockUndercount(b);
    WriteU16(BlockStructSize(b)) + [b.slot] + EncodeBytes(b.name) + [b.size]
      + EncodeArray(b.params, EncodeUniform)
  }

  lemma {:induction false} UniformsLength(us: seq<Uniform>)
    ensures |Concat(us, EncodeUniform)| >= 7 * |us|
    decreases |us|
  {
    if |us| > 0 {
      UniformsLength(us[1..]);
    }
  }

  /**
    For a block whose write fits a 16-bit length, the prefix is exactly
    2 bytes per uniform short of the bytes that follow it, so it matches
    them only when the block has no uniforms.
  */
  lemma BlockPrefixShort(b: UniformBlock)
    requires |EncodeBlock(b)| - 2 < TWO16
    ensures Prefix(EncodeBlock(b)) == |EncodeBlock(b)| - 2 - 2 * |b.params|
    ensures Prefix(EncodeBlock(b)) == |EncodeBlock(b)| - 2 <==> |b.params| == 0
  {
    var r := EncodeBlock(b);
    UniformsLength(b.params);
    ModSmall(|r| - 2 - 2 * |b.params|);
  }

  // ---------------------------------------------------------------- texture_t

  function TextureStructSize(t: Texture): uint16
  {
    Wrap16(1 + BytesStructSize(t.name) + 1)
  }

  function EncodeTexture(t: Texture): (r: seq<uint8>)
    ensures |r| == |t.name| + 6
    ensures Prefix(r) == TextureStructSize(t) == (|r| - 2) % TWO16
  {
    ModAbsorb(|t.name| + 2, 2);
    WriteU16(TextureStructSize(t)) + [t.slot] + EncodeBytes(t.name) + [t.kind]
  }

  // ---------------------------------------------------------------- shader_t

  function ShaderStructSize(s: Shader): uint16
  {
    Wrap16(1 + BytesStructSize(s.source))
  }

  function EncodeShader(s: Shader): (r: seq<uint8>)
    ensures |r| == |s.source| + 5
    ensures Prefix(r) == ShaderStructSize(s) == (|r| - 2) % TWO16
  {
    ModAbsorb(|s.source| + 2, 1);
    WriteU16(ShaderStructSize(s)) + [s.srcType] + EncodeBytes(s.source)
  }

  // ---------------------------------------------------------------- program_t

  function ProgramStructSize(p: Program): uint16
  {
    Wrap16(1 + ShaderStructSize(p.vs) + ShaderStructSize(p.fs))
  }

  lemma ProgramStructSizeModulo(p: Program)
    ensures ProgramStructSize(p) == (|p.vs.source| + |p.fs.source| + 7) % TWO16
  {
    var v, f := |p.vs.source|, |p.fs.source|;
    assert ShaderStructSize(p.vs) == (v + 3) % TWO16 by { ModAbsorb(v + 2, 1); }
    assert ShaderStructSize(p.fs) == (f + 3) % TWO16 by { ModAbsorb(f + 2, 1); }
    ModAbsorb(v + 3, 1 + (f + 3) % TWO16);
    ModAbsorb(f + 3, v + 4);
  }

  function EncodeProgram(p: Program): (r: seq<uint8>)
    ensures |r| == |p.vs.source| + |p.fs.source| + 13
    ensures Prefix(r) == ProgramStructSize(p)
    ensures ProgramStructSize(p) == (|r| - 2 - 4) % TWO16
  {
    ProgramStructSizeModulo(p);
    WriteU16(ProgramStructSize(p)) + [p.lang] + EncodeShader(p.vs) + EncodeShader(p.fs)
  }

  /**
    For a program whose write fits a 16-bit length, the prefix is 4 bytes
    short of the bytes that follow it: the two shader prefixes are not counted.
  */
  lemma ProgramPrefixShort(p: Program)
    requires |EncodeProgram(p)| - 2 < TWO16
    ensures Prefix(EncodeProgram(p)) == |EncodeProgram(p)| - 6
  {
    ModSmall(|EncodeProgram(p)| - 6);
  }

  // ---------------------------------------------------------------- header_t, optional<T>

  /** `header_t::write`: the two magic bytes and the version as a little-endian `uint16_t`. */
  function EncodeHeader(): (r: seq<uint8>)
    ensures r == [0xCF, 0xBA, 1, 0]
  {
    [Magic0, Magic1] + WriteU16(Version)
  }

  /** `optional<T>::fill`: marks the value present and touches nothing else. */
  function Fill<T>(o: Optional<T>): (r: Optional<T>)
    ensures !r.isEmpty && r.value == o.value
  {
    o.(isEmpty := false)
  }

  /** `optional<T>::write`: one presence byte, then the value's write only when present. */
  function EncodeOptional<T>(o: Optional<T>, enc: T -> seq<uint8>): (r: seq<uint8>)
    ensures |r| >= 1 && (r[0] == 1 <==> !o.isEmpty) && (r[0] == 0 <==> o.isEmpty)
    ensures o.isEmpty ==> r == [0]
    ensures !o.isEmpty ==> r[1..] == enc(o.value)
  {
    if !o.isEmpty then [1] + enc(o.value) else [0]
  }

  // ---------------------------------------------------------------- WriteContext, Writer::gen

  function EncodeTextures(ts: seq<Texture>): seq<uint8>
  {
    EncodeArray(ts, EncodeTexture)
  }

  /** `Writer::gen(ctx)`, i.e. the bytes `WriteContext::write` puts into the stream. */
  function Serialize(c: Context): (r: seq<uint8>)
    ensures |r| >= 4 && r[..4] == EncodeHeader()
  {
    EncodeHeader()
      + EncodeArray(c.attrs, EncodeAttr)
      + EncodeOptional(c.vsBlock, EncodeBlock)
      + EncodeOptional(c.fsBlock, EncodeBlock)
      + EncodeOptional(c.textures, EncodeTextures)
      + EncodeArray(c.programs, EncodeProgram)
  }
}

=== FILE: reflect.dfy ===
/**
  The reflection pass (`lxtap_write_header`): folds the reflection of each
  declared program's vs and fs snippets into the context, in the order the
  loops of the source visit them.
*/
module Reflect {
  import opened Wire
  import opened Records
  import opened Results
  import opened Producer

  /** The record built from one reflected input: slot to `uint16_t`, type to a byte. */
  function ToAttr(i: ReflInput): Attr
  {
    Attr(Wrap16(i.slot), i.name, Wrap8(i.kind))
  }

  function ToUniform(u: ReflUniform): Uniform
  {
    Uniform(u.name, Wrap8(u.kind), Wrap8(u.arrayCount), Wrap8(u.offset))
  }

  function ToTexture(img: ReflImage): Texture
  {
    Texture(Wrap8(img.slot), img.name, Wrap8(img.kind))
  }

  function ToUniforms(us: seq<ReflUniform>): seq<Uniform>
  {
    seq(|us|, j requires 0 <= j < |us| => ToUniform(us[j]))
  }

  function ToTextures(imgs: seq<ReflImage>): seq<Texture>
  {
    seq(|imgs|, j requires 0 <= j < |imgs| => ToTexture(imgs[j]))
  }

  // ---------------------------------------------------------------- attributes

  /** The attribute loop: inputs with a negative slot are skipped, the others appended. */
  function AddAttrs(c: Context, ins: seq<ReflInput>): Context
    decreases |ins|
  {
    if |ins| == 0 then c
    else
      var c' := if ins[0].slot >= 0 then c.(attrs := c.attrs + [ToAttr(ins[0])]) else c;
      AddAttrs(c', ins[1..])
  }

  /**
    The attributes made from the inputs that have a slot, in reflection order:
    exactly the inputs with `slot >= 0`, each one converted unchanged.
  */
  function SlottedAttrs(ins: seq<ReflInput>): (r: seq<Attr>)
    ensures |r| <= |ins|
    ensures forall j :: 0 <= j < |ins| && ins[j].slot >= 0 ==> ToAttr(ins[j]) in r
    ensures forall a :: a in r ==> exists j :: 0 <= j < |ins| && ins[j].slot >= 0 && a == ToAttr(ins[j])
    ensures (forall j :: 0 <= j < |ins| ==> ins[j].slot >= 0) ==>
              |r| == |ins| && forall j :: 0 <= j < |ins| ==> r[j] == ToAttr(ins[j])
    decreases |ins|
  {
    if |ins| == 0 then []
    else
      var rest := SlottedAttrs(ins[1..]);
      assert forall j :: 1 <= j < |ins| ==> ins[1..][j - 1] == ins[j];
      (if ins[0].slot >= 0 then [ToAttr(ins[0])] else []) + rest
  }

  /**
    One more input extends the kept attributes at the end, and only when its
    slot is non-negative: the kept list is in reflection order.
  */
  lemma {:induction false} SlottedAttrsSnoc(ins: seq<ReflInput>, x: ReflInput)
    ensures SlottedAttrs(ins + [x]) == SlottedAttrs(ins) + (if x.slot >= 0 then [ToAttr(x)] else [])
    decreases |ins|
  {
    if |ins| == 0 {
      assert [] + [x] == [x];
      assert [x][1..] == [];
    } else {
      assert (ins + [x])[0] == ins[0];
      assert (ins + [x])[1..] == ins[1..] + [x];
      SlottedAttrsSnoc(ins[1..], x);
    }
  }

  lemma {:induction false} AddAttrsAppends(c: Context, ins: seq<ReflInput>)
    ensures AddAttrs(c, ins) == c.(attrs := c.attrs + SlottedAttrs(ins))
    decreases |ins|
  {
    if |ins| > 0 {
      var c' := if ins[0].slot >= 0 then c.(attrs := c.attrs + [ToAttr(ins[0])]) else c;
      AddAttrsAppends(c', ins[1..]);
      assert c.attrs + SlottedAttrs(ins) == c'.attrs + SlottedAttrs(ins[1..]);
    } else {
      assert c.attrs + [] == c.attrs;
    }
  }

  // ---------------------------------------------------------------- uniform blocks

  /** The member loop: each reflected uniform is appended to the block's params. */
  function AddUniforms(ps: seq<Uniform>, us: seq<ReflUniform>): seq<Uniform>
    decreases |us|
  {
    if |us| == 0 then ps else AddUniforms(ps + [ToUniform(us[0])], us[1..])
  }

  lemma {:induction false} AddUniformsAppends(ps: seq<Uniform>, us: seq<ReflUniform>)
    ensures AddUniforms(ps, us) == ps + ToUniforms(us)
    decreases |us|
  {
    if |us| > 0 {
      AddUniformsAppends(ps + [ToUniform(us[0])], us[1..]);
      assert [ToUniform(us[0])] + ToUniforms(us[1..]) == ToUniforms(us);
    } else {
      assert ps + [] == ps;
    }
  }

  /** One block of the vs or fs loop: name, slot and size overwritten, members appended. */
  function Overwrite(b: UniformBlock, ub: ReflBlock): UniformBlock
  {
    b.(name := ub.name, slot := Wrap8(ub.slot), size := Wrap8(ub.size),
       params := AddUniforms(b.params, ub.uniforms))
  }

  /** All members of all blocks, block by block. */
  function BlockUniforms(bs: seq<ReflBlock>): seq<Uniform>
  {
    if |bs| == 0 then [] else ToUniforms(bs[0].uniforms) + BlockUniforms(bs[1..])
  }

  /**
    What a run of blocks leaves in a block: the last block's name, slot and
    size, and the members of every block appended to the existing ones.
  */
  function MergeBlocks(b: UniformBlock, bs: seq<ReflBlock>): UniformBlock
  {
    if |bs| == 0 then b
    else
      var last := bs[|bs| - 1];
      UniformBlock(Wrap8(last.slot), last.name, Wrap8(last.size), b.params + BlockUniforms(bs))
  }

  lemma MergeBlocksStep(b: UniformBlock, bs: seq<ReflBlock>)
    requires |bs| > 0
    ensures MergeBlocks(Overwrite(b, bs[0]), bs[1..]) == MergeBlocks(b, bs)
  {
    var t := ToUniforms(bs[0].uniforms);
    var o := Overwrite(b, bs[0]);
    AddUniformsAppends(b.params, bs[0].uniforms);
    assert o.params == b.params + t;
    assert BlockUniforms(bs) == t + BlockUniforms(bs[1..]);
    if |bs| == 1 {
      assert BlockUniforms(bs[1..]) == [];
      assert MergeBlocks(o, bs[1..]) == o;
    } else {
      var last := bs[|bs| - 1];
      assert bs[1..][|bs[1..]| - 1] == last;
      assert o.params + BlockUniforms(bs[1..]) == b.params + BlockUniforms(bs);
    }
  }

  /** Lines 53-69: the vertex blocks mark the vs block present and overwrite it. */
  function VsBlockStep(c: Context, ub: ReflBlock): Context
  {
    var o := Fill(c.vsBlock);
    c.(vsBlock := o.(value := Overwrite(o.value, ub)))
  }

  function AddVsBlocks(c: Context, bs: seq<ReflBlock>): Context
    decreases |bs|
  {
    if |bs| == 0 then c else AddVsBlocks(VsBlockStep(c, bs[0]), bs[1..])
  }

  /**
    Lines 71-87: the fragment blocks overwrite the fs block's value, but the
    `fill` on line 73 marks the vs block present, never the fs block.
  */
  function FsBlockStep(c: Context, ub: ReflBlock): Context
  {
    c.(vsBlock := Fill(c.vsBlock), fsBlock := c.fsBlock.(value := Overwrite(c.fsBlock.value, ub)))
  }

  function AddFsBlocks(c: Context, bs: seq<ReflBlock>): Context
    decreases |bs|
  {
    if |bs| == 0 then c else AddFsBlocks(FsBlockStep(c, bs[0]), bs[1..])
  }

  /**
    The vertex blocks: the vs block is present afterwards iff it was before
    or some block was seen; the last block wins, the members accumulate, and
    nothing else changes.
  */
  lemma {:induction false} VsBlocksEffect(c: Context, bs: seq<ReflBlock>)
    ensures AddVsBlocks(c, bs) ==
      c.(vsBlock := Optional(MergeBlocks(c.vsBlock.value, bs), c.vsBlock.isEmpty && |bs| == 0))
    decreases |bs|
  {
    if |bs| > 0 {
      VsBlocksEffect(VsBlockStep(c, bs[0]), bs[1..]);
      MergeBlocksStep(c.vsBlock.value, bs);
    }
  }

  /**
    The fragment blocks: the fs block's presence flag never changes, its value
    takes the last block and accumulates members, and the vs block becomes
    present as soon as one fragment block exists.
  */
  lemma {:induction false} FsBlocksEffect(c: Context, bs: seq<ReflBlock>)
    ensures AddFsBlocks(c, bs) ==
      c.(vsBlock := if |bs| > 0 then Fill(c.vsBlock) else c.vsBlock,
         fsBlock := c.fsBlock.(value := MergeBlocks(c.fsBlock.value, bs)))
    decreases |bs|
  {
    if |bs| > 0 {
      FsBlocksEffect(FsBlockStep(c, bs[0]), bs[1..]);
      MergeBlocksStep(c.fsBlock.value, bs);
    }
  }

  // ---------------------------------------------------------------- textures

  /** Lines 90-98: each fragment image marks the texture list present and is appended. */
  function ImageStep(c: Context, img: ReflImage): Context
  {
    var t := Fill(c.textures);
    c.(textures := t.(value := t.value + [ToTexture(img)]))
  }

  function AddImages(c: Context, imgs: seq<ReflImage>): Context
    decreases |imgs|
  {
    if |imgs| == 0 then c else AddImages(ImageStep(c, imgs[0]), imgs[1..])
  }

  /** The texture list is present iff it was or some image exists; textures are appended in order. */
  lemma {:induction false} ImagesEffect(c: Context, imgs: seq<ReflImage>)
    ensures AddImages(c, imgs) ==
      c.(textures := Optional(c.textures.value + ToTextures(imgs), c.textures.isEmpty && |imgs| == 0))
    decreases |imgs|
  {
    if |imgs| > 0 {
      ImagesEffect(ImageStep(c, imgs[0]), imgs[1..]);
      assert (c.textures.value + [ToTexture(imgs[0])]) + ToTextures(imgs[1..])
          == c.textures.value + ToTextures(imgs);
    } else {
      assert ToTextures(imgs) == [];
      assert c.textures.value + [] == c.textures.value;
    }
  }

  // ---------------------------------------------------------------- the pass

  /** The body of the program loop for resolved vs and fs reflections. */
  function ReflectProgram(c: Context, vs: StageRefl, fs: StageRefl): Context
  {
    AddImages(AddFsBlocks(AddVsBlocks(AddAttrs(c, vs.inputs), vs.blocks), fs.blocks), fs.images)
  }

  /** Lines 29-35: the program's snippet names and their compiled sources must all be found. */
  function ResolveStages(d: ProgramDecl, cross: CrossOutput): Result<(StageRefl, StageRefl), Error>
  {
    if d.vsSnippet.None? || d.fsSnippet.None? then Err(UnknownSnippet)
    else
      var vs := SourceAt(cross, d.vsSnippet.value);
      var fs := SourceAt(cross, d.fsSnippet.value);
      if vs.None? || fs.None? then Err(MissingSource)
      else Ok((vs.value.refl, fs.value.refl))
  }

  function HeaderFrom(c: Context, progs: seq<ProgramDecl>, cross: CrossOutput): Result<Context, Error>
    decreases |progs|
  {
    if |progs| == 0 then Ok(c)
    else
      var st :- ResolveStages(progs[0], cross);
      HeaderFrom(ReflectProgram(c, st.0, st.1), progs[1..], cross)
  }

  /** `lxtap_write_header`: the reflection of every declared program, in the input's program order. */
  function HeaderPass(c: Context, inp: Input, cross: CrossOutput): Result<Context, Error>
  {
    HeaderFrom(c, inp.programs, cross)
  }

  /** What one program's reflection does to each field of the context. */
  lemma ReflectProgramEffect(c: Context, vs: StageRefl, fs: StageRefl)
    ensures var r := ReflectProgram(c, vs, fs);
      && r.attrs == c.attrs + SlottedAttrs(vs.inputs)
      && (!r.vsBlock.isEmpty <==> !c.vsBlock.isEmpty || |vs.blocks| > 0 || |fs.blocks| > 0)
      && r.vsBlock.value == MergeBlocks(c.vsBlock.value, vs.blocks)
      && r.fsBlock.isEmpty == c.fsBlock.isEmpty
      && r.fsBlock.value == MergeBlocks(c.fsBlock.value, fs.blocks)
      && (!r.textures.isEmpty <==> !c.textures.isEmpty || |fs.images| > 0)
      && r.textures.value == c.textures.value + ToTextures(fs.images)
      && r.programs == c.programs
  {
    var c1 := AddAttrs(c, vs.inputs);
    AddAttrsAppends(c, vs.inputs);
    var c2 := AddVsBlocks(c1, vs.blocks);
    VsBlocksEffect(c1, vs.blocks);
    var c3 := AddFsBlocks(c2, fs.blocks);
    FsBlocksEffect(c2, fs.blocks);
    ImagesEffect(c3, fs.images);
  }

  /**
    The pass never marks the fs block present: it is written as absent
    whenever it started absent, whatever fragment blocks exist.
  */
  lemma {:induction false} FsBlockStaysAbsent(c: Context, progs: seq<ProgramDecl>, cross: CrossOutput)
    requires HeaderFrom(c, progs, cross).Ok?
    ensures HeaderFrom(c, progs, cross).value.fsBlock.isEmpty == c.fsBlock.isEmpty
    ensures HeaderFrom(c, progs, cross).value.programs == c.programs
    decreases |progs|
  {
    if |progs| > 0 {
      var st := ResolveStages(progs[0], cross).value;
      ReflectProgramEffect(c, st.0, st.1);
      FsBlockStaysAbsent(ReflectProgram(c, st.0, st.1), progs[1..], cross);
    }
  }

  /** The pass fails exactly when some declared program cannot be resolved. */
  lemma {:induction false} HeaderPassFails(c: Context, progs: seq<ProgramDecl>, cross: CrossOutput)
    ensures HeaderFrom(c, progs, cross).Err? <==>
              exists j :: 0 <= j < |progs| && ResolveStages(progs[j], cross).Err?
    decreases |progs|
  {
    if |progs| > 0 {
      var r := ResolveStages(progs[0], cross);
      if r.Ok? {
        HeaderPassFails(ReflectProgram(c, r.value.0, r.value.1), progs[1..], cross);
        if exists j :: 0 <= j < |progs| && ResolveStages(progs[j], cross).Err? {
          var j :| 0 <= j < |progs| && ResolveStages(progs[j], cross).Err?;
          assert progs[1..][j - 1] == progs[j];
        }
      }
    }
  }
}

=== FILE: results.dfy ===
/** Failure-compatible wrappers used by the decoder and by the aggregation passes. */
module Results {

  /** A value that may be missing; `:-` propagates `None`. */
  datatype Option<+T> = None | Some(value: T) {
    predicate IsFailure() {
      None?
    }

    function PropagateFailure<U>(): Option<U>
      requires None?
    {
      None
    }

    function Extract(): T
      requires Some?
    {
      value
    }
  }

  /** The outcome of a pass that can abort; `:-` propagates `Err`. */
  datatype Result<+T, +E> = Ok(value: T) | Err(error: E) {
    predicate IsFailure() {
      Err?
    }

    function PropagateFailure<U>(): Result<U, E>
      requires Err?
    {
      Err(error)
    }

    function Extract(): T
      requires Ok?
    {
      value
    }
  }
}

=== FILE: roundtrip.dfy ===
/**
  The loader recovers, from `Serialize(c)`, everything the writer put in it
  and uses up every byte, provided each length and count fits its 16-bit field.
*/
module RoundTrip {
  import opened Wire
  import opened Records
  import opened Results
  import opened Decoding

  lemma AttrRoundTrip(a: Attr, rest: seq<uint8>)
    requires Fits(a.name)
    ensures DecodeAttr(EncodeAttr(a) + rest) == Some((a, rest))
  {
    var t3 := [a.kind] + rest;
    var t2 := EncodeBytes(a.name) + t3;
    var t1 := WriteU16(a.slot) + t2;
    assert EncodeAttr(a) + rest == WriteU16(AttrStructSize(a)) + t1;
    ReadU16Write(AttrStructSize(a), t1);
    ReadU16Write(a.slot, t2);
    ReadBytesEncode(a.name, t3);
    ReadU8Write(a.kind, rest);
  }

  lemma UniformRoundTrip(u: Uniform, rest: seq<uint8>)
    requires Fits(u.name)
    ensures DecodeUniform(EncodeUniform(u) + rest) == Some((u, rest))
  {
    var t4 := [u.offset] + rest;
    var t3 := [u.arrayCount] + t4;
    var t2 := [u.kind] + t3;
    var t1 := EncodeBytes(u.name) + t2;
    assert EncodeUniform(u) + rest == WriteU16(UniformStructSize(u)) + t1;
    ReadU16Write(UniformStructSize(u), t1);
    ReadBytesEncode(u.name, t2);
    ReadU8Write(u.kind, t3);
    ReadU8Write(u.arrayCount, t4);
    ReadU8Write(u.offset, rest);
  }

  /** Reading n elements back from n element writes yields the elements in order. */
  lemma {:induction false} DecodeNConcat<T>(xs: seq<T>, enc: T -> seq<uint8>,
                                           dec: seq<uint8> -> Option<(T, seq<uint8>)>, rest: seq<uint8>)
    requires forall i, r :: 0 <= i < |xs| ==> dec(enc(xs[i]) + r) == Some((xs[i], r))
    ensures DecodeN(|xs|, Concat(xs, enc) + rest, dec) == Some((xs, rest))
    decreases |xs|
  {
    if |xs| > 0 {
      var tail := Concat(xs[1..], enc) + rest;
      assert Concat(xs, enc) + rest == enc(xs[0]) + tail;
      assert dec(enc(xs[0]) + tail) == Some((xs[0], tail));
      forall i, r | 0 <= i < |xs[1..]|
        ensures dec(enc(xs[1..][i]) + r) == Some((xs[1..][i], r))
      {
        assert xs[1..][i] == xs[i + 1];
      }
      DecodeNConcat(xs[1..], enc, dec, rest);
      assert [xs[0]] + xs[1..] == xs;
    } else {
      assert Concat(xs, enc) + rest == rest;
      assert xs == [];
    }
  }

  lemma ArrayRoundTrip<T>(xs: seq<T>, enc: T -> seq<uint8>,
                          dec: seq<uint8> -> Option<(T, seq<uint8>)>, rest: seq<uint8>)
    requires |xs| < TWO16
    requires forall i, r :: 0 <= i < |xs| ==> dec(enc(xs[i]) + r) == Some((xs[i], r))
    ensures DecodeArray(EncodeArray(xs, enc) + rest, dec) == Some((xs, rest))
  {
    var t := Concat(xs, enc) + rest;
    assert EncodeArray(xs, enc) + rest == WriteU16(|xs|) + t;
    ReadU16Write(|xs|, t);
    DecodeNConcat(xs, enc, dec, rest);
  }

  lemma BlockRoundTrip(b: UniformBlock, rest: seq<uint8>)
    requires BlockFits(b)
    ensures DecodeBlock(EncodeBlock(b) + rest) == Some((b, rest))
  {
    var t4 := EncodeArray(b.params, EncodeUniform) + rest;
    var t3 := [b.size] + t4;
    var t2 := EncodeBytes(b.name) + t3;
    var t1 := [b.slot] + t2;
    assert EncodeBlock(b) + rest == WriteU16(BlockStructSize(b)) + t1;
    ReadU16Write(BlockStructSize(b), t1);
    ReadU8Write(b.slot, t2);
    ReadBytesEncode(b.name, t3);
    ReadU8Write(b.size, t4);
    forall i, r | 0 <= i < |b.params|
      ensures DecodeUniform(EncodeUniform(b.params[i]) + r) == Some((b.params[i], r))
    {
      UniformRoundTrip(b.params[i], r);
    }
    ArrayRoundTrip(b.params, EncodeUniform, DecodeUniform, rest);
  }

  lemma TextureRoundTrip(t: Texture, rest: seq<uint8>)
    requires Fits(t.name)
    ensures DecodeTexture(EncodeTexture(t) + rest) == Some((t, rest))
  {
    var t3 := [t.kind] + rest;
    var t2 := EncodeBytes(t.name) + t3;
    var t1 := [t.slot] + t2;
    assert EncodeTexture(t) + rest == WriteU16(TextureStructSize(t)) + t1;
    ReadU16Write(TextureStructSize(t), t1);
    ReadU8Write(t.slot, t2);
    ReadBytesEncode(t.name, t3);
    ReadU8Write(t.kind, rest);
  }

  lemma TexturesRoundTrip(ts: seq<Texture>, rest: seq<uint8>)
    requires TexturesFit(ts)
    ensures DecodeTextures(EncodeTextures(ts) + rest) == Some((ts, rest))
  {
    forall i, r | 0 <= i < |ts|
      ensures DecodeTexture(EncodeTexture(ts[i]) + r) == Some((ts[i], r))
    {
      TextureRoundTrip(ts[i], r);
    }
    ArrayRoundTrip(ts, EncodeTexture, DecodeTexture, rest);
  }

  lemma ShaderRoundTrip(s: Shader, rest: seq<uint8>)
    requires Fits(s.source)
    ensures DecodeShader(EncodeShader(s) + rest) == Some((s, rest))
  {
    var t2 := EncodeBytes(s.source) + rest;
    var t1 := [s.srcType] + t2;
    assert EncodeShader(s) + rest == WriteU16(ShaderStructSize(s)) + t1;
    ReadU16Write(ShaderStructSize(s), t1);
    ReadU8Write(s.srcType, t2);
    ReadBytesEncode(s.source, rest);
  }

  lemma ProgramRoundTrip(p: Program, rest: seq<uint8>)
    requires ProgramFits(p)
    ensures DecodeProgram(EncodeProgram(p) + rest) == Some((p, rest))
  {
    var t3 := EncodeShader(p.fs) + rest;
    var t2 := EncodeShader(p.vs) + t3;
    var t1 := [p.lang] + t2;
    assert EncodeProgram(p) + rest == WriteU16(ProgramStructSize(p)) + t1;
    ReadU16Write(ProgramStructSize(p), t1);
    ReadU8Write(p.lang, t2);
    ShaderRoundTrip(p.vs, t3);
    ShaderRoundTrip(p.fs, rest);
  }

  /** An absent section is one 0x00 byte; a present one reads back its value. */
  lemma OptionalRoundTrip<T>(o: Optional<T>, enc: T -> seq<uint8>,
                             dec: seq<uint8> -> Option<(T, seq<uint8>)>, rest: seq<uint8>)
    requires !o.isEmpty ==> dec(enc(o.value) + rest) == Some((o.value, rest))
    ensures DecodeOptional(EncodeOptional(o, enc) + rest, dec) == Some((Present(o), rest))
  {
    if o.isEmpty {
      ReadU8Write(0, rest);
    } else {
      assert EncodeOptional(o, enc) + rest == [1] + (enc(o.value) + rest);
      ReadU8Write(1, enc(o.value) + rest);
    }
  }

  lemma SerializeLayout(c: Context)
    ensures Serialize(c)[4..] ==
      EncodeArray(c.attrs, EncodeAttr)
        + (EncodeOptional(c.vsBlock, EncodeBlock)
        + (EncodeOptional(c.fsBlock, EncodeBlock)
        + (EncodeOptional(c.textures, EncodeTextures)
        + EncodeArray(c.programs, EncodeProgram))))
  {
    var h := EncodeHeader();
    var a := EncodeArray(c.attrs, EncodeAttr);
    var v := EncodeOptional(c.vsBlock, EncodeBlock);
    var f := EncodeOptional(c.fsBlock, EncodeBlock);
    var t := EncodeOptional(c.textures, EncodeTextures);
    var p := EncodeArray(c.programs, EncodeProgram);
    var x := a + (v + (f + (t + p)));
    assert Serialize(c) == h + a + v + f + t + p;
    Assoc(h + a + v + f, t, p);
    Assoc(h + a + v, f, t + p);
    Assoc(h + a, v, f + (t + p));
    Assoc(h, a, v + (f + (t + p)));
    assert (h + x)[4..] == x;
  }

  lemma Assoc(a: seq<uint8>, b: seq<uint8>, c: seq<uint8>)
    ensures a + b + c == a + (b + c)
  {
  }

  lemma DecodeSectionsSteps(t1: seq<uint8>, t2: seq<uint8>, t3: seq<uint8>, t4: seq<uint8>, t5: seq<uint8>, m: Loaded)
    requires DecodeArray(t1, DecodeAttr) == Some((m.attrs, t2))
    requires DecodeOptional(t2, DecodeBlock) == Some((m.vsBlock, t3))
    requires DecodeOptional(t3, DecodeBlock) == Some((m.fsBlock, t4))
    requires DecodeOptional(t4, DecodeTextures) == Some((m.textures, t5))
    requires DecodeArray(t5, DecodeProgram) == Some((m.programs, []))
    ensures DecodeSections(t1) == Some(m)
  {
  }

  lemma AttrsRoundTrip(attrs: seq<Attr>, rest: seq<uint8>)
    requires |attrs| < TWO16 && forall a :: a in attrs ==> Fits(a.name)
    ensures DecodeArray(EncodeArray(attrs, EncodeAttr) + rest, DecodeAttr) == Some((attrs, rest))
  {
    forall i, r | 0 <= i < |attrs|
      ensures DecodeAttr(EncodeAttr(attrs[i]) + r) == Some((attrs[i], r))
    {
      AttrRoundTrip(attrs[i], r);
    }
    ArrayRoundTrip(attrs, EncodeAttr, DecodeAttr, rest);
  }

  lemma ProgramsRoundTrip(ps: seq<Program>)
    requires |ps| < TWO16 && forall p :: p in ps ==> ProgramFits(p)
    ensures DecodeArray(EncodeArray(ps, EncodeProgram), DecodeProgram) == Some((ps, []))
  {
    forall i, r | 0 <= i < |ps|
      ensures DecodeProgram(EncodeProgram(ps[i]) + r) == Some((ps[i], r))
    {
      ProgramRoundTrip(ps[i], r);
    }
    assert EncodeArray(ps, EncodeProgram) == EncodeArray(ps, EncodeProgram) + [];
    ArrayRoundTrip(ps, EncodeProgram, DecodeProgram, []);
  }

  lemma OptionalBlockRoundTrip(o: Optional<UniformBlock>, rest: seq<uint8>)
    requires OptionFits(Present(o), BlockFits)
    ensures DecodeOptional(EncodeOptional(o, EncodeBlock) + rest, DecodeBlock) == Some((Present(o), rest))
  {
    if !o.isEmpty {
      BlockRoundTrip(o.value, rest);
    }
    OptionalRoundTrip(o, EncodeBlock, DecodeBlock, rest);
  }

  lemma OptionalTexturesRoundTrip(o: Optional<seq<Texture>>, rest: seq<uint8>)
    requires OptionFits(Present(o), TexturesFit)
    ensures DecodeOptional(EncodeOptional(o, EncodeTextures) + rest, DecodeTextures) == Some((Present(o), rest))
  {
    if !o.isEmpty {
      TexturesRoundTrip(o.value, rest);
    }
    OptionalRoundTrip(o, EncodeTextures, DecodeTextures, rest);
  }

  /** The five sections, written back to back, read back in order with nothing left over. */
  lemma SectionsRoundTrip(c: Context)
    requires LoadedFits(View(c))
    ensures DecodeSections(Serialize(c)[4..]) == Some(View(c))
  {
    var t5 := EncodeArray(c.programs, EncodeProgram);
    var t4 := EncodeOptional(c.textures, EncodeTextures) + t5;
    var t3 := EncodeOptional(c.fsBlock, EncodeBlock) + t4;
    var t2 := EncodeOptional(c.vsBlock, EncodeBlock) + t3;
    var t1 := EncodeArray(c.attrs, EncodeAttr) + t2;
    SerializeLayout(c);
    AttrsRoundTrip(c.attrs, t2);
    OptionalBlockRoundTrip(c.vsBlock, t3);
    OptionalBlockRoundTrip(c.fsBlock, t4);
    OptionalTexturesRoundTrip(c.textures, t5);
    ProgramsRoundTrip(c.programs);
    DecodeSectionsSteps(t1, t2, t3, t4, t5, View(c));
  }

  /**
    Round trip of `Writer::gen`: decoding its output yields the observable
    context (attributes, present blocks, present textures, programs, all in
    order) and consumes every byte.
  */
  lemma SerializeRoundTrip(c: Context)
    requires LoadedFits(View(c))
    ensures DecodeFile(Serialize(c)) == Some(View(c))
  {
    SectionsRoundTrip(c);
    var s := Serialize(c);
    assert s[0] == Magic0 && s[1] == Magic1 && U16Value(s[2], s[3]) == Version by {
      assert s[..4] == [0xCF, 0xBA, 1, 0];
      assert s[2] == s[..4][2] && s[3] == s[..4][3];
    }
    assert DecodeFile(s) == DecodeSections(s[4..]);
  }
}

=== FILE: wire.dfy ===
/**
  Primitive encoder of the lxtap format: fixed-width unsigned integers
  (little-endian) and length-prefixed byte strings (the `bytes` record).
*/
module Wire {

  const TWO8: int := 256
  const TWO16: int := 65536

  type uint8 = x: int | 0 <= x < 256
  type uint16 = x: int | 0 <= x < 65536

  /** Storing an integer into an 8-bit unsigned field keeps it modulo 2^8. */
  function Wrap8(x: int): (r: uint8)
    ensures (r - x) % TWO8 == 0
  {
    x % TWO8
  }

  /** Storing an integer into a `uint16_t` keeps it modulo 2^16. */
  function Wrap16(x: int): (r: uint16)
    ensures (r - x) % TWO16 == 0
  {
    x % TWO16
  }

  /** The value of two bytes read as a little-endian `uint16_t`. */
  function U16Value(lo: uint8, hi: uint8): uint16
  {
    lo + TWO8 * hi
  }

  /** `write_binary` for a `uint16_t`: two bytes, low byte first. */
  function WriteU16(v: uint16): (r: seq<uint8>)
    ensures |r| == 2 && U16Value(r[0], r[1]) == v
  {
    [v % TWO8, v / TWO8]
  }

  /** `bytes::write`: the 16-bit length of the string, then its raw bytes, no terminator. */
  function EncodeBytes(s: seq<uint8>): (r: seq<uint8>)
    ensures |r| == |s| + 2
    ensures U16Value(r[0], r[1]) == |s| % TWO16
    ensures r[2..] == s
  {
    WriteU16(Wrap16(|s|)) + s
  }

  /** `bytes::struct_size`: the whole encoding, length field included, as a `uint16_t`. */
  function BytesStructSize(s: seq<uint8>): (n: uint16)
    ensures n == |EncodeBytes(s)| % TWO16
    ensures |s| + 2 < TWO16 ==> n == |EncodeBytes(s)|
  {
    Wrap16(|s| + 2)
  }
}
